=== FILE: README.md ===
# Event-driven banking transaction engine in Dafny

A model of a two-service banking system and its web client's request state.

- **Initiating service.** `BankingService` validates transfer, deposit and withdrawal requests and looks the accounts up. A first deposit creates a zero-balance account. Each request sends one `*_INITIATED` intent event and answers `{transactionId, PENDING}`.
- **Processing service.** The consumer `AccountService` filters and validates the loosely-typed intent event. It saves a PENDING `Transaction` record and dispatches on `transactionType` to `TransactionProcessor`.
- **Processor.** It moves the money and marks the record COMPLETED, announcing it on `transaction-events`. On insufficient funds it sends a ROLLBACK on `rollback-events` and fails.
- **Compensator.** `TransactionRollbackHandler` reverses a COMPLETED record's effect, using the amount and participants stored on the record, and marks it ROLLED_BACK.
- **Web client.** The `transferSlice` and `depositSlice` reducers are idle / loading / succeeded / failed state machines.

Modelling choices:

- Amounts are integer cents; the amount columns have scale 2.
- The processing service's database is a `Store`: a balance map plus a record map keyed by transaction id.
- The channel between the services is an append-only outbox of `(topic, key, event)` messages.
- Each `@Transactional` handler call is one atomic step. When it throws, no change to the store survives. A ROLLBACK sent before the throw stays sent.
- Java's `null` is `Option.None`. A thrown exception is `Result.Err` carrying the exception class and message.
- The event map is a record of optional fields. Whether its amount parses as a decimal is decided by the data: `Amount = Decimal(cents) | Malformed(text)`.
- The fresh UUID, whether the initiating service's Kafka send throws, and whether the database accepts the PENDING save are parameters. The processing service's sends are assumed to succeed.

Files:

- `common.dfy` (`Common`): nullable values, results, exceptions.
- `ledger.dfy` (`Ledger`): the `Transaction` record, its status life cycle, the store and the money total.
- `events.dfy` (`EventPublisher`): event shapes and topics.
- `banking.dfy` (`BankingService`): the initiating service and its `Account` entity.
- `processor.dfy` (`TransactionProcessor`).
- `rollback.dfy` (`RollbackHandler`).
- `consumer.dfy` (`AccountService`).
- `saga.dfy` (`Saga`): the services together, the scenarios of the integration tests, and the redelivery finding.
- `slices.dfy` (`Slices`): the two reducers and their thunks' rejection values.

Notes on behaviour the model keeps from the code:

- **Same account on both sides.** The consumer and processor do not refuse a transfer whose two ids coincide; only the initiating service does. Within one unit of work the repository hands out one entity per id, so the debit and then the credit apply to the same row and the balance is unchanged. The rollback of such a transfer works the same way.
- **Amounts are not re-checked.** The consumer does not check the amount's sign. A negative deposit amount reaching it is applied as written.
- **Short ids on first deposit.** A deposit to a new account whose id is shorter than four characters fails inside `generateAccountNumber`, because `substring` gets a negative index.
- **Rollback of a deposit.** Reversing a deposit is not checked against the balance and can make it negative.

## Model

| member | source | states |
|---|---|---|
| Ledger.ParseType | backend/account-service/src/main/java/com/portfolio/banking/accountservice/domain/entity/Transaction.java:31-32 | reading a `transactionType` string back gives a type whose name is that string, and it is unrecognised exactly when the string is not one of TRANSFER, DEPOSIT, WITHDRAWAL |
| Ledger.ParseTypeName | backend/account-service/src/main/java/com/portfolio/banking/accountservice/domain/entity/Transaction.java:31-32 | writing a type's name and reading it back gives the same type |
| Ledger.NewTransaction | backend/account-service/src/main/java/com/portfolio/banking/accountservice/domain/entity/Transaction.java:15-35 | a new record carries the given id, participants, amount and type, and its status is PENDING |
| Ledger.Save | backend/account-service/src/main/java/com/portfolio/banking/accountservice/domain/entity/Transaction.java:15-17 | saving is an upsert by primary key: the saved record is stored under its id, every other record is kept, and records stay keyed by their own id |
| Ledger.TotalRemove | backend/account-service/src/main/java/com/portfolio/banking/accountservice/domain/service/TransactionProcessor.java:37-40 | the money total of a balance map is the removed account's balance plus the total of the rest; the basis for stating that a transfer and its reversal conserve money |
| Ledger.TotalUpdate | backend/account-service/src/main/java/com/portfolio/banking/accountservice/domain/service/TransactionRollbackHandler.java:51-60 | changing one balance changes the money total by exactly the difference, which is how each debit and credit of a transfer or its reversal moves the total |
| EventPublisher.PublishCompleted | backend/account-service/src/main/java/com/portfolio/banking/accountservice/domain/service/EventPublisher.java:19-33 | the completed event is `<TYPE>_COMPLETED` with status COMPLETED, copies id, participants, amount and type, goes to transaction-events keyed by the id, and is not an `*_INITIATED` type |
| EventPublisher.PublishRollback | backend/account-service/src/main/java/com/portfolio/banking/accountservice/domain/service/EventPublisher.java:35-48 | the rollback event is ROLLBACK with no status, copies id, participants, amount and type, and goes to rollback-events keyed by the id |
| EventPublisher.CompletedIsNotInitiated | backend/account-service/src/main/java/com/portfolio/banking/accountservice/domain/service/EventPublisher.java:22 | no `<TYPE>_COMPLETED` name, whatever the type, is one of the three intent names |
| BankingService.Deposit | backend/banking-service/src/main/java/com/portfolio/banking/bankingservice/domain/entity/Account.java:48-54 | a null or non-positive amount fails with "Deposit amount must be positive"; otherwise the balance grows by exactly the amount, strictly, and the other columns are kept |
| BankingService.Status | backend/banking-service/src/main/java/com/portfolio/banking/bankingservice/domain/entity/Account.java:56-58 | every account reports ACTIVE |
| BankingService.GenerateAccountNumber | backend/banking-service/src/main/java/com/portfolio/banking/bankingservice/domain/service/BankingService.java:196-198 | the number is "ACC" followed by the id's last four characters upper-cased, seven characters in all; an id shorter than four makes `substring` throw |
| BankingService.FindOrCreateAccount | backend/banking-service/src/main/java/com/portfolio/banking/bankingservice/domain/service/BankingService.java:177-194 | an existing row is returned unchanged; otherwise a row with balance zero, the generated number and "Portfolio Customer <id>" is added and nothing else changes |
| BankingService.ValidateTransfer | backend/banking-service/src/main/java/com/portfolio/banking/bankingservice/domain/service/BankingService.java:156-166 | passes exactly for two present, distinct ids and a positive amount; otherwise reports the first failing check in the order ids, distinctness, amount |
| BankingService.ValidateDeposit | backend/banking-service/src/main/java/com/portfolio/banking/bankingservice/domain/service/BankingService.java:168-175 | passes exactly for a present id and a positive amount; otherwise reports the id check before the amount check |
| BankingService.CheckBalanceArgument | backend/banking-service/src/main/java/com/portfolio/banking/bankingservice/domain/service/BankingService.java:123-126 | `getBalance` refuses a null or empty id with the same message as a deposit, before any remote call |
| BankingService.InitiateTransfer | backend/banking-service/src/main/java/com/portfolio/banking/bankingservice/domain/service/BankingService.java:37-65 | validation first, then `from` then `to` looked up; success iff all pass and the send succeeds, answering `{id, PENDING}` with exactly one TRANSFER_INITIATED event on transaction-events keyed by the id; a failed send is "Transfer initiation failed" |
| BankingService.InitiateDeposit | backend/banking-service/src/main/java/com/portfolio/banking/bankingservice/domain/service/BankingService.java:67-94 | success iff validation passes, the account exists or can be created, and the send succeeds; a failed validation reports its own error, a new id shorter than four fails with the `substring` error, and a failed send is "Deposit initiation failed"; a missing account is added as `findOrCreateAccount` builds it and no other row changes; the DEPOSIT_INITIATED event carries the id, account and amount |
| BankingService.InitiateWithdrawal | backend/banking-service/src/main/java/com/portfolio/banking/bankingservice/domain/service/BankingService.java:96-121 | like the deposit but never creates an account: a missing account fails with "Account not found: <id>" |
| BankingService.ValidationPrecedesEffects | backend/banking-service/src/test/java/com/portfolio/banking/bankingservice/domain/service/BankingServiceUnitTest.java:314-370 | a request that fails validation fails identically whatever the accounts, the fresh id and the channel |
| BankingService.FromLookedUpFirst | backend/banking-service/src/main/java/com/portfolio/banking/bankingservice/domain/service/BankingService.java:41-44 | a missing `from` is reported whether or not `to` exists |
| BankingService.DepositCreatesWithdrawalDoesNot | backend/banking-service/src/main/java/com/portfolio/banking/bankingservice/domain/service/BankingService.java:71-74 | for a missing id of at least four characters, a positive amount and a send that succeeds, a deposit succeeds while a withdrawal fails with not-found |
| TransactionProcessor.CompleteTransaction | backend/account-service/src/main/java/com/portfolio/banking/accountservice/domain/service/TransactionProcessor.java:71-91 | a missing record fails with "Transaction not found: <id>" and changes nothing; otherwise the record becomes COMPLETED and one completed event carries the record's stored participants and amount |
| TransactionProcessor.ProcessTransfer | backend/account-service/src/main/java/com/portfolio/banking/accountservice/domain/service/TransactionProcessor.java:24-43 | missing accounts fail in the order from, to; insufficient funds send one ROLLBACK and change nothing; a missing record fails with "Transaction not found" and sends nothing; otherwise the pair sum is kept, `from` loses the amount and stays non-negative, `to` gains it, no other account changes, one `TRANSFER_COMPLETED` event carries the stored record's fields, and the receipt reads COMPLETED/TRANSFER |
| TransactionProcessor.ProcessDeposit | backend/account-service/src/main/java/com/portfolio/banking/accountservice/domain/service/TransactionProcessor.java:45-54 | the account is credited by the amount with no check on it, or nothing changes when it is missing; a missing record fails with "Transaction not found" and sends nothing; success sends one `DEPOSIT_COMPLETED` event with the stored record's fields and returns the COMPLETED/DEPOSIT receipt |
| TransactionProcessor.ProcessWithdrawal | backend/account-service/src/main/java/com/portfolio/banking/accountservice/domain/service/TransactionProcessor.java:56-69 | insufficient funds send one ROLLBACK and change nothing; a missing record fails with "Transaction not found" and sends nothing; otherwise the account is debited and is non-negative afterwards, one `WITHDRAWAL_COMPLETED` event carries the stored record's fields, and the receipt reads COMPLETED/WITHDRAWAL |
| TransactionProcessor.TransferConservesTotal | backend/account-service/src/main/java/com/portfolio/banking/accountservice/domain/service/TransactionProcessor.java:37-40 | a transfer never changes the money total of all accounts |
| RollbackHandler.LookupAccount | backend/account-service/src/main/java/com/portfolio/banking/accountservice/domain/service/TransactionRollbackHandler.java:78-81 | a null participant fails as a null key, a missing one with "Account not found: <id>" |
| RollbackHandler.Reverse | backend/account-service/src/main/java/com/portfolio/banking/accountservice/domain/service/TransactionRollbackHandler.java:48-81 | the inverse of the stored effect: a transfer credits `from` and debits `to` by the stored amount, a deposit is debited, a withdrawal credited, an unrecognised type changes nothing; when a participant is null or missing the error is that of the first failing lookup (`from` before `to`) |
| RollbackHandler.HandleRollback | backend/account-service/src/main/java/com/portfolio/banking/accountservice/domain/service/TransactionRollbackHandler.java:24-76 | non-ROLLBACK events, unknown ids and records not COMPLETED are ignored with nothing changed; otherwise balances are reversed and the record becomes ROLLED_BACK, or, when a participant lookup fails, the lookup's exception leaves the listener and nothing changes; record statuses only move forward |
| RollbackHandler.RollbackIgnoresEventPayload | backend/account-service/src/main/java/com/portfolio/banking/accountservice/domain/service/TransactionRollbackHandler.java:48-53 | only the event's type and id matter; its amount and participants are never read |
| RollbackHandler.RollbackConservesTransferTotal | backend/account-service/src/main/java/com/portfolio/banking/accountservice/domain/service/TransactionRollbackHandler.java:51-60 | reversing a transfer keeps the money total |
| RollbackHandler.SecondRollbackIgnored | backend/account-service/src/main/java/com/portfolio/banking/accountservice/domain/service/TransactionRollbackHandler.java:43-46 | a second rollback of the same transaction is discarded |
| AccountService.GetBalance | backend/account-service/src/main/java/com/portfolio/banking/accountservice/domain/service/AccountService.java:26-33 | a null or empty id is refused, an unknown id is not found, otherwise the stored balance is returned |
| AccountService.ParseIntent | backend/account-service/src/main/java/com/portfolio/banking/accountservice/domain/service/AccountService.java:39-91 | the event is accepted exactly when it has an intent type, id, type and amount, a parsable amount, a known type and the participants that type needs; otherwise the first failing check in source order (event type, required fields, amount format, transaction type, transfer participants, account id) is the reason |
| AccountService.SavePending | backend/account-service/src/main/java/com/portfolio/banking/accountservice/domain/service/AccountService.java:93-107 | an accepted save upserts the PENDING record; a rejected one leaves the store as it was; balances are untouched |
| AccountService.Dispatch | backend/account-service/src/main/java/com/portfolio/banking/accountservice/domain/service/AccountService.java:109-116 | exactly one processor step chosen by `transactionType`, with the event's id, participants and amount |
| AccountService.HandleTransactionEvent | backend/account-service/src/main/java/com/portfolio/banking/accountservice/domain/service/AccountService.java:35-120 | a dropped event changes nothing and sends nothing; a valid one saves the PENDING record and runs the matching step; a failed step leaves just the saved record; a completed one leaves it COMPLETED |
| AccountService.HandleRollbackEvent | backend/account-service/src/main/java/com/portfolio/banking/accountservice/domain/service/AccountService.java:122-125 | the event goes to the rollback handler unchanged |
| AccountService.DispatchIgnoresEventType | backend/account-service/src/main/java/com/portfolio/banking/accountservice/domain/service/AccountService.java:109-116 | two events differing only in which intent name they carry are handled identically |
| Saga.Consume | backend/account-service/src/main/java/com/portfolio/banking/accountservice/domain/service/AccountService.java:35-36 | consuming a message only appends to the outbox, never removes a record, and a rollback or foreign-topic message sends nothing |
| Saga.InitiatedEventsAccepted | backend/banking-service/src/main/java/com/portfolio/banking/bankingservice/domain/service/BankingService.java:48-55 | every intent the orchestrator sends passes all the consumer's checks, with the same id, type, participants and amount |
| Saga.CompletionEventsDropped | backend/account-service/src/main/java/com/portfolio/banking/accountservice/domain/service/EventPublisher.java:22-31 | a completion event the processor sends back on transaction-events is dropped by the consumer when it arrives, after the delivery that sent it, and changes nothing |
| Saga.ProcessThenRollbackRestores | backend/account-service/src/main/java/com/portfolio/banking/accountservice/domain/service/TransactionRollbackHandler.java:51-74 | when the PENDING save was accepted, a completed transaction rolled back restores every balance and leaves the record ROLLED_BACK |
| Saga.RejectedSaveRollbackReversesEarlier | backend/account-service/src/main/java/com/portfolio/banking/accountservice/domain/service/AccountService.java:103-111 | with the save rejected and a COMPLETED transfer of 200.00 already stored under the id, a 2000.00 intent fails on funds and its ROLLBACK reverses the stored transfer: 1000.00/500.00 ends at 1200.00/300.00 |
| Saga.RejectedSaveBreaksRestore | backend/account-service/src/main/java/com/portfolio/banking/accountservice/domain/service/AccountService.java:103-111 | with the save rejected and another record already stored under the id, the processor moves the event's amount but the rollback reverses the stored one: 100.00 stored, 200.00 sent, 1000.00/500.00 ends at 900.00/600.00 |
| Saga.InsufficientFundsRollbackDiscarded | backend/account-service/src/main/java/com/portfolio/banking/accountservice/domain/service/TransactionRollbackHandler.java:43-46 | when the PENDING save was accepted, the ROLLBACK sent on insufficient funds finds the record PENDING and is discarded |
| Saga.TransferScenario | backend/account-service/src/test/java/com/portfolio/banking/accountservice/domain/service/AccountServiceIntegrationTest.java:157-191 | 1000.00/500.00, transfer 200.00: 800.00/700.00 COMPLETED; rolled back: 1000.00/500.00 ROLLED_BACK |
| Saga.InsufficientTransferScenario | backend/account-service/src/test/java/com/portfolio/banking/accountservice/domain/service/AccountServiceIntegrationTest.java:83-101 | a 2000.00 transfer from 1000.00 leaves both balances, keeps the record PENDING and sends one ROLLBACK |
| Saga.SingleAccountScenarios | backend/account-service/src/test/java/com/portfolio/banking/accountservice/domain/service/AccountServiceIntegrationTest.java:103-155 | deposit 100.00 gives 1100.00; withdrawing 2000.00 is refused; withdrawing 100.00 gives 900.00 |
| Saga.UnknownRollbackScenario | backend/account-service/src/main/java/com/portfolio/banking/accountservice/domain/service/TransactionRollbackHandler.java:36-40 | a ROLLBACK for an unknown id changes nothing |
| Saga.RedeliveryReappliesTransfer | backend/account-service/src/main/java/com/portfolio/banking/accountservice/domain/service/AccountService.java:93-116 | as written, a redelivered transfer intent moves the money a second time |
| Saga.RedeliveryRevivesRolledBack | backend/account-service/src/main/java/com/portfolio/banking/accountservice/domain/service/AccountService.java:93-116 | as written, a redelivery after a rollback moves a ROLLED_BACK record back to COMPLETED |
| Saga.HandleTransactionEventGuarded | backend/account-service/src/main/java/com/portfolio/banking/accountservice/domain/service/AccountService.java:93-116 | with a status check before saving, record statuses only move forward and a settled intent is dropped with nothing changed |
| Saga.GuardedAgreesBeforeSettlement | backend/account-service/src/main/java/com/portfolio/banking/accountservice/domain/service/AccountService.java:93-116 | on a first delivery, or while the record is PENDING, the guarded consumer behaves exactly as the source |
| Saga.GuardedRedeliveryIdempotent | backend/account-service/src/main/java/com/portfolio/banking/accountservice/domain/service/AccountService.java:93-116 | redelivering a completed intent to the guarded consumer changes nothing and sends nothing |
| Slices.TransferReduce | frontend/src/store/slices/transferSlice.ts:36-55 | pending: loading and error cleared; fulfilled: succeeded with the payload; rejected: failed with payload, or the serialized error without one; reset: the initial state |
| Slices.DepositReduce | frontend/src/store/slices/depositSlice.ts:37-55 | the transfer reducer except that pending keeps the previous error |
| Slices.InitialWellFormed | frontend/src/store/slices/transferSlice.ts:12-16 | the initial state `{idle, null, null}` of both slices is well formed |
| Slices.RunTransferLast | frontend/src/store/slices/transferSlice.ts:44-55 | after any non-empty run the status is the one the last action leads to, and a pending or reset leaves the transfer slice without an error |
| Slices.RunTransferWellFormed | frontend/src/store/slices/transferSlice.ts:32-57 | with requests made one at a time, the transfer slice is empty while idle and shows an error exactly when failed, so a succeeded transfer never shows one |
| Slices.OverlappingTransfersKeepError | frontend/src/store/slices/transferSlice.ts:44-55 | with two requests in flight, a success after a failure leaves the transfer slice succeeded and showing the earlier error |
| Slices.RunDepositWellFormed | frontend/src/store/slices/depositSlice.ts:33-57 | after any run of actions, in any order, the deposit slice is empty while idle and carries an error when failed |
| Slices.DepositTracksTransfer | frontend/src/store/slices/depositSlice.ts:45-47 | fed the same actions, the slices agree on status and data always and on the error when idle or failed |
| Slices.ResetFromAnyState | frontend/tests/store/slices/transferSlice.test.ts:98-117 | reset returns either slice to the initial state from any state |
| Slices.DepositKeepsStaleError | frontend/src/store/slices/depositSlice.ts:45-51 | even one request at a time, a failure and then a success leave the deposit slice succeeded but showing the old error, where the transfer slice shows none |
| Slices.PayloadOrError | frontend/src/store/slices/transferSlice.ts:54 | the stored error is the rejection payload when present, else the serialized error |
| Slices.MessageOr | frontend/src/store/slices/depositSlice.ts:28 | the server's message when non-empty, else the fallback text |
| Slices.RejectionAsWritten | frontend/src/store/slices/transferSlice.ts:27 | as written, either thunk rejects with the server's message, or "Deposit failed" when there is none; never empty |
| Slices.TransferFallbackNamesDeposit | frontend/src/store/slices/transferSlice.ts:27 | the deposit thunk's rejection is already as intended; the transfer thunk's differs from the intended one exactly when the server sent no message, and then reads "Deposit failed" |
| Slices.Rejection | frontend/src/store/slices/transferSlice.ts:27 | each thunk rejects with the server's message, or a fallback naming its own operation; never empty |
| Slices.RejectionsDistinct | frontend/src/store/slices/transferSlice.ts:27 | with the intended fallbacks, the transfer and deposit rejections agree exactly when the server sent a message |
| Slices.FailedTransferShowsMessage | frontend/src/store/slices/transferSlice.ts:26-28 | as written, a failed transfer request leaves the slice failed with the server's message, or "Deposit failed" when there is none, and the data kept |
| Slices.FailedTransferShowsIntendedMessage | frontend/src/store/slices/transferSlice.ts:26-28 | with the intended fallback, a failed transfer request with no server message leaves the slice showing "Transfer failed" |
| Slices.FailedDepositShowsMessage | frontend/src/store/slices/depositSlice.ts:25-29 | a failed deposit request leaves the slice failed with a non-empty text error and the data kept |

## Left out

- The remote balance lookup in the initiating service's `getBalance` is left out: the HTTP call, its response handling and decimal parsing. Only its argument check is modelled, as `BankingService.CheckBalanceArgument`.
- `getSystemHealth` is left out. It relies on repository queries that are not declared in the repository interface.
- The `account_number` unique constraint is left out: two new ids with the same last four characters would collide at the database.
- Column widths are left out.
- A non-string value in a string field of the event map would throw `ClassCastException`; that is not modelled. Every field is either absent or of its declared kind.
- BankingService.GenerateAccountNumber: upper-cases ASCII letters only. Java's `toUpperCase` also maps other Unicode letters; some of them change length.
- Timestamps (`createdAt`, `updatedAt`) and logging are left out.
- Kafka delivery, consumer groups, concurrency and lost-update races are left out. Consuming a message is one sequential step.
- Slices.RunTransferWellFormed: proved only for requests made one at a time, because with overlapping requests a success can keep an earlier error, as `Slices.OverlappingTransfersKeepError` shows.
- Saga.ProcessThenRollbackRestores: promised only when the PENDING save was accepted. A rejected save over a different stored record makes the processor and the rollback use different amounts, as `Saga.RejectedSaveBreaksRestore` shows.
- Saga.InsufficientFundsRollbackDiscarded: promised only when the PENDING save was accepted. A rejected save over a COMPLETED record with the same id lets the ROLLBACK reverse that earlier transaction, as `Saga.RejectedSaveRollbackReversesEarlier` shows.
- Sends from the processing service (EventPublisher.java:31 and :46) are assumed to succeed. In the source a send that throws inside `processTransfer`, `processDeposit` or `processWithdrawal` undoes that step's balance and record changes. The broker's availability is outside the model.
- Sub-cent amounts are left out. The validations accept any positive decimal, such as 0.001, and the processor does its arithmetic on the unrounded event amount; only the scale-2 columns round. Integer cents cannot express this, so every amount in the model is a whole number of cents.
- BankingService.GenerateAccountNumber: counts string length in Unicode scalar values, while Java's `length` and `substring` count UTF-16 code units. An id with characters outside the Basic Multilingual Plane can pass Java's length check and still fail here with `IndexOutOfBounds`, or take a different last four.
- Saga.Consume: states only the shape of the outbox and record keys; what each handler does is stated on the handler itself.
- The HTTP controllers, the card service and the frontend UI are not part of this model.

## Findings

| source | as written | input that shows it | evidently intended | confidence | as-written member | corrected member |
|---|---|---|---|---|---|---|
| backend/account-service/src/main/java/com/portfolio/banking/accountservice/domain/service/AccountService.java:93-116 | a redelivered intent re-saves the record as PENDING and the processor applies it again, without reading the status | the same 200.00 TRANSFER_INITIATED event delivered twice to 1000.00/500.00 leaves 600.00/900.00; delivered after its rollback it turns ROLLED_BACK into COMPLETED | an intent whose record has left PENDING is not applied again, so statuses only move PENDING → COMPLETED → ROLLED_BACK | medium, not executed | Saga.RedeliveryReappliesTransfer | Saga.HandleTransactionEventGuarded |
| frontend/src/store/slices/transferSlice.ts:27 | the transfer thunk's fallback rejection text is "Deposit failed" | a failed transfer whose response has no message shows "Deposit failed" | the transfer thunk falls back to "Transfer failed" | high, not executed | Slices.RejectionAsWritten | Slices.Rejection |

The status-guarded consumer `Saga.HandleTransactionEventGuarded` is the corrected definition for the first row. Its properties are proved in `Saga.GuardedAgreesBeforeSettlement` and `Saga.GuardedRedeliveryIdempotent`. The as-written behaviour also appears in `Saga.RedeliveryRevivesRolledBack`. For the second row, `Slices.TransferFallbackNamesDeposit` exhibits the discrepancy. The corrected `Slices.Rejection` gives each thunk its own fallback, and `Slices.RejectionsDistinct` proves the two texts differ exactly when the server sent no message.

=== FILE: banking.dfy ===
/** The initiating service: its `Account` entity
    (backend/banking-service .../domain/entity/Account.java) and the
    orchestrator `BankingService`
    (backend/banking-service .../domain/service/BankingService.java).

    Each `initiate*` call is one `@Transactional` unit: it either returns the
    PENDING acknowledgement together with the new account map and the one
    intent message it sent, or it throws, and then nothing it did persists
    and nothing was sent. The fresh UUID and whether the send throws are
    parameters. */
module BankingService {
  import opened Common
  import opened EventPublisher

  datatype BankAccount = BankAccount(accountId: string, accountNumber: string, balance: int, customerName: string)

  type Accounts = map<string, BankAccount>

  /** The balance column's initializer, `BigDecimal.ZERO`. */
  const DefaultBalance: int := 0

  /** `Account.deposit`: the updated account, whose balance is what the Java
      method returns. */
  function Deposit(a: BankAccount, amount: Option<int>): (r: Result<BankAccount>)
    ensures r.Ok? <==> Positive(amount)
    ensures r.Err? ==> r.error == IllegalArgument("Deposit amount must be positive")
    ensures r.Ok? ==> r.value.balance - a.balance == amount.value && r.value.balance > a.balance
    ensures r.Ok? ==> r.value.accountId == a.accountId && r.value.accountNumber == a.accountNumber
    ensures r.Ok? ==> r.value.customerName == a.customerName
    ensures r.Ok? && a.balance >= 0 ==> r.value.balance > 0
  {
    if !Positive(amount) then Err(IllegalArgument("Deposit amount must be positive"))
    else Ok(a.(balance := a.balance + amount.value))
  }

  /** `Account.getStatus`: every account reports ACTIVE, whatever its state. */
  function Status(a: BankAccount): (s: string)
    ensures s == "ACTIVE"
  {
    "ACTIVE"
  }

  /** `Character.toUpperCase` on the ASCII letters; other characters are kept. */
  function UpperAscii(c: char): char {
    if 'a' <= c <= 'z' then (c as int - 32) as char else c
  }

  function Upper(s: string): (u: string)
    ensures |u| == |s|
    ensures forall i :: 0 <= i < |s| ==> u[i] == UpperAscii(s[i])
  {
    seq(|s|, i requires 0 <= i < |s| => UpperAscii(s[i]))
  }

  /** `generateAccountNumber`: "ACC" followed by the last four characters of
      the id in upper case; `substring` throws for an id shorter than four. */
  function GenerateAccountNumber(accountId: string): (r: Result<string>)
    ensures r.Ok? <==> |accountId| >= 4
    ensures r.Err? ==> r.error == IndexOutOfBounds
    ensures r.Ok? ==> |r.value| == 7 && r.value[..3] == "ACC"
    ensures r.Ok? ==> forall i :: 3 <= i < 7 ==> r.value[i] == UpperAscii(accountId[|accountId| - 7 + i])
  {
    if |accountId| < 4 then Err(IndexOutOfBounds)
    else Ok("ACC" + Upper(accountId[|accountId| - 4..]))
  }

  datatype Found = Found(accounts: Accounts, account: BankAccount)

  /** `findOrCreateAccount`: the existing row, or a new zero-balance row. */
  function FindOrCreateAccount(accounts: Accounts, accountId: string): (r: Result<Found>)
    ensures accountId in accounts ==> r == Ok(Found(accounts, accounts[accountId]))
    ensures accountId !in accounts ==> (r.Ok? <==> |accountId| >= 4)
    ensures accountId !in accounts && r.Err? ==> r.error == IndexOutOfBounds
    ensures accountId !in accounts && r.Ok? ==>
      && r.value.account.balance == DefaultBalance
      && r.value.account.accountId == accountId
      && r.value.account.accountNumber == GenerateAccountNumber(accountId).value
      && r.value.account.customerName == "Portfolio Customer " + accountId
      && r.value.accounts == accounts[accountId := r.value.account]
  {
    if accountId in accounts then Ok(Found(accounts, accounts[accountId]))
    else
      var number :- GenerateAccountNumber(accountId);
      var account := BankAccount(accountId, number, DefaultBalance, "Portfolio Customer " + accountId);
      Ok(Found(accounts[accountId := account], account))
  }

  /** `validateTransfer`: the three checks in order, the first failure reported. */
  function ValidateTransfer(from: Option<string>, to: Option<string>, amount: Option<int>): (c: Check)
    ensures c.Pass? <==> Present(from) && Present(to) && from != to && Positive(amount)
    ensures !Present(from) || !Present(to) ==> c == Fail(IllegalArgument("Account IDs must not be null or empty"))
    ensures Present(from) && Present(to) && from == to ==> c == Fail(IllegalArgument("Invalid accounts"))
    ensures Present(from) && Present(to) && from != to && !Positive(amount) ==>
              c == Fail(IllegalArgument("Amount must be positive"))
  {
    if !Present(from) || !Present(to) then Fail(IllegalArgument("Account IDs must not be null or empty"))
    else if from.value == to.value then Fail(IllegalArgument("Invalid accounts"))
    else if !Positive(amount) then Fail(IllegalArgument("Amount must be positive"))
    else Pass
  }

  /** `validateDeposit`, used for deposits and withdrawals alike. */
  function ValidateDeposit(accountId: Option<string>, amount: Option<int>): (c: Check)
    ensures c.Pass? <==> Present(accountId) && Positive(amount)
    ensures !Present(accountId) ==> c == Fail(IllegalArgument("Account ID must not be null"))
    ensures Present(accountId) && !Positive(amount) ==> c == Fail(IllegalArgument("Amount must be positive"))
  {
    if !Present(accountId) then Fail(IllegalArgument("Account ID must not be null"))
    else if !Positive(amount) then Fail(IllegalArgument("Amount must be positive"))
    else Pass
  }

  /** The argument check `getBalance` makes before any remote call. */
  function CheckBalanceArgument(accountId: Option<string>): (c: Check)
    ensures c.Pass? <==> Present(accountId)
    ensures c.Fail? ==> c == ValidateDeposit(accountId, Some(1))
  {
    if !Present(accountId) then Fail(IllegalArgument("Account ID must not be null")) else Pass
  }

  /** The `{transactionId, status}` map an initiation returns. */
  datatype Ack = Ack(transactionId: string, status: string)

  /** A successful initiation: the acknowledgement, the account rows
      afterwards, and the single message sent. */
  datatype Initiation = Initiation(ack: Ack, accounts: Accounts, sent: Message)

  /** The intent event the orchestrator builds, status PENDING. */
  function IntentEvent(eventType: string, transactionId: string, fromAccountId: Option<string>,
                       toAccountId: Option<string>, accountId: Option<string>, amount: int,
                       transactionType: string): Event
  {
    Event(Some(eventType), Some(transactionId), fromAccountId, toAccountId, accountId,
          Some(Decimal(amount)), Some(transactionType), Some("PENDING"))
  }

  function Initiated(transactionId: string, accounts: Accounts, event: Event): Initiation {
    Initiation(Ack(transactionId, "PENDING"), accounts, Message(TransactionTopic, transactionId, event))
  }

  /** `initiateTransfer`. */
  function InitiateTransfer(accounts: Accounts, from: Option<string>, to: Option<string>, amount: Option<int>,
                            transactionId: string, sendSucceeds: bool): (r: Result<Initiation>)
    ensures ValidateTransfer(from, to, amount).Fail? ==> r == Err(ValidateTransfer(from, to, amount).error)
    ensures r.Ok? <==> ValidateTransfer(from, to, amount).Pass? && from.value in accounts && to.value in accounts
                       && sendSucceeds
    ensures ValidateTransfer(from, to, amount).Pass? && from.value !in accounts ==>
              r == Err(AccountNotFound(from.value))
    ensures ValidateTransfer(from, to, amount).Pass? && from.value in accounts && to.value !in accounts ==>
              r == Err(AccountNotFound(to.value))
    ensures (ValidateTransfer(from, to, amount).Pass? && from.value in accounts && to.value in accounts
             && !sendSucceeds) ==> r == Err(IllegalState("Transfer initiation failed"))
    ensures r.Ok? ==>
      && r.value.ack == Ack(transactionId, "PENDING")
      && r.value.accounts == accounts
      && r.value.sent.topic == TransactionTopic && r.value.sent.key == transactionId
      && r.value.sent.event == IntentEvent("TRANSFER_INITIATED", transactionId, from, to, None,
                                           amount.value, "TRANSFER")
  {
    match ValidateTransfer(from, to, amount)
    case Fail(e) => Err(e)
    case Pass =>
      if from.value !in accounts then Err(AccountNotFound(from.value))
      else if to.value !in accounts then Err(AccountNotFound(to.value))
      else if !sendSucceeds then Err(IllegalState("Transfer initiation failed"))
      else Ok(Initiated(transactionId, accounts,
                        IntentEvent("TRANSFER_INITIATED", transactionId, from, to, None, amount.value, "TRANSFER")))
  }

  /** `initiateDeposit`: a missing account is created with balance zero first. */
  function InitiateDeposit(accounts: Accounts, accountId: Option<string>, amount: Option<int>,
                           transactionId: string, sendSucceeds: bool): (r: Result<Initiation>)
    ensures ValidateDeposit(accountId, amount).Fail? ==> r == Err(ValidateDeposit(accountId, amount).error)
    ensures r.Ok? <==> ValidateDeposit(accountId, amount).Pass?
                       && (accountId.value in accounts || |accountId.value| >= 4) && sendSucceeds
    ensures r.Err? ==> r.error in {IllegalArgument("Account ID must not be null"),
                                   IllegalArgument("Amount must be positive"),
                                   IndexOutOfBounds, IllegalState("Deposit initiation failed")}
    ensures ValidateDeposit(accountId, amount).Pass? && accountId.value !in accounts && |accountId.value| < 4 ==>
              r == Err(IndexOutOfBounds)
    ensures (ValidateDeposit(accountId, amount).Pass? && (accountId.value in accounts || |accountId.value| >= 4)
             && !sendSucceeds) ==> r == Err(IllegalState("Deposit initiation failed"))
    ensures r.Ok? ==>
      && r.value.ack == Ack(transactionId, "PENDING")
      && (accountId.value in accounts ==> r.value.accounts == accounts)
      && (accountId.value !in accounts ==>
            && r.value.accounts.Keys == accounts.Keys + {accountId.value}
            && r.value.accounts[accountId.value] == FindOrCreateAccount(accounts, accountId.value).value.account
            && r.value.accounts[accountId.value].balance == DefaultBalance
            && forall id :: id in accounts ==> r.value.accounts[id] == accounts[id])
      && r.value.sent.topic == TransactionTopic && r.value.sent.key == transactionId
      && r.value.sent.event == IntentEvent("DEPOSIT_INITIATED", transactionId, None, None, accountId,
                                           amount.value, "DEPOSIT")
  {
    match ValidateDeposit(accountId, amount)
    case Fail(e) => Err(e)
    case Pass =>
      match FindOrCreateAccount(accounts, accountId.value)
      case Err(e) => Err(e)
      case Ok(found) =>
        if !sendSucceeds then Err(IllegalState("Deposit initiation failed"))
        else Ok(Initiated(transactionId, found.accounts,
                          IntentEvent("DEPOSIT_INITIATED", transactionId, None, None, accountId, amount.value,
                                      "DEPOSIT")))
  }

  /** `initiateWithdrawal`: unlike a deposit, never creates an account. */
  function InitiateWithdrawal(accounts: Accounts, accountId: Option<string>, amount: Option<int>,
                              transactionId: string, sendSucceeds: bool): (r: Result<Initiation>)
    ensures ValidateDeposit(accountId, amount).Fail? ==> r == Err(ValidateDeposit(accountId, amount).error)
    ensures r.Ok? <==> ValidateDeposit(accountId, amount).Pass? && accountId.value in accounts && sendSucceeds
    ensures ValidateDeposit(accountId, amount).Pass? && accountId.value !in accounts ==>
              r == Err(AccountNotFound(accountId.value))
    ensures ValidateDeposit(accountId, amount).Pass? && accountId.value in accounts && !sendSucceeds ==>
              r == Err(IllegalState("Withdrawal initiation failed"))
    ensures r.Ok? ==>
      && r.value.ack == Ack(transactionId, "PENDING")
      && r.value.accounts == accounts
      && r.value.sent.topic == TransactionTopic && r.value.sent.key == transactionId
      && r.value.sent.event == IntentEvent("WITHDRAWAL_INITIATED", transactionId, None, None, accountId,
                                           amount.value, "WITHDRAWAL")
  {
    match ValidateDeposit(accountId, amount)
    case Fail(e) => Err(e)
    case Pass =>
      if accountId.value !in accounts then Err(AccountNotFound(accountId.value))
      else if !sendSucceeds then Err(IllegalState("Withdrawal initiation failed"))
      else Ok(Initiated(transactionId, accounts,
                        IntentEvent("WITHDRAWAL_INITIATED", transactionId, None, None, accountId, amount.value,
                                    "WITHDRAWAL")))
  }

  /** Validation happens before any lookup and any send: a request that
      fails validation fails the same way whatever the accounts, the fresh id
      and the channel. */
  lemma ValidationPrecedesEffects(a1: Accounts, a2: Accounts, from: Option<string>, to: Option<string>,
                                  amount: Option<int>, id1: string, id2: string, send1: bool, send2: bool)
    ensures ValidateTransfer(from, to, amount).Fail? ==>
              InitiateTransfer(a1, from, to, amount, id1, send1) == InitiateTransfer(a2, from, to, amount, id2, send2)
    ensures ValidateDeposit(from, amount).Fail? ==>
              && InitiateDeposit(a1, from, amount, id1, send1) == InitiateDeposit(a2, from, amount, id2, send2)
              && InitiateWithdrawal(a1, from, amount, id1, send1) == InitiateWithdrawal(a2, from, amount, id2, send2)
  {
  }

  /** The transfer looks `from` up first: when it is missing, the error names
      it whether or not `to` exists. */
  lemma FromLookedUpFirst(accounts: Accounts, from: string, to: string, amount: int, id: string, send: bool,
                          toAccount: BankAccount)
    requires from != to && |from| > 0 && |to| > 0 && amount > 0 && from !in accounts
    ensures InitiateTransfer(accounts, Some(from), Some(to), Some(amount), id, send) == Err(AccountNotFound(from))
    ensures InitiateTransfer(accounts[to := toAccount], Some(from), Some(to), Some(amount), id, send)
            == Err(AccountNotFound(from))
  {
  }

  /** For a missing id of at least four characters, a positive amount and
      a send that succeeds, a deposit creates the account and succeeds; a
      withdrawal from the same missing account reports it not found. */
  lemma DepositCreatesWithdrawalDoesNot(accounts: Accounts, accountId: string, amount: int, id: string)
    requires |accountId| >= 4 && amount > 0 && accountId !in accounts
    ensures InitiateDeposit(accounts, Some(accountId), Some(amount), id, true).Ok?
    ensures InitiateWithdrawal(accounts, Some(accountId), Some(amount), id, true) == Err(AccountNotFound(accountId))
  {
  }
}

=== FILE: common.dfy ===
/** Values shared by every part of the model: optional values standing for
    Java's nullable references, results for calls that may throw, and the
    exceptions the two services raise. */
module Common {

  /** A nullable reference: `None` stands for Java's `null`. */
  datatype Option<+T> = None | Some(value: T)

  /** The exceptions the modelled code raises, by Java class. */
  datatype Error =
    | IllegalArgument(message: string)   // IllegalArgumentException
    | IllegalState(message: string)      // IllegalStateException
    | IndexOutOfBounds                   // String.substring with a negative begin index
    | NullKey                            // a repository lookup with a null id

  /** The outcome of a call that returns a value or throws. */
  datatype Result<+T> = Ok(value: T) | Err(error: Error) {

    predicate IsFailure() {
      Err?
    }

    function PropagateFailure<U>(): Result<U>
      requires Err?
    {
      Err(error)
    }

    function Extract(): T
      requires Ok?
    {
      value
    }
  }

  /** The outcome of a void check that returns normally or throws. */
  datatype Check = Pass | Fail(error: Error)

  /** Java's `s != null && !s.isEmpty()`. */
  predicate Present(s: Option<string>) {
    s.Some? && |s.value| > 0
  }

  /** Java's `amount != null && amount.compareTo(BigDecimal.ZERO) > 0`. */
  predicate Positive(amount: Option<int>) {
    amount.Some? && amount.value > 0
  }

  /** The exception both services raise for a missing account row. */
  function AccountNotFound(id: string): Error {
    IllegalArgument("Account not found: " + id)
  }
}

=== FILE: consumer.dfy ===
/** The processing service's intent consumer `AccountService`
    (backend/account-service .../domain/service/AccountService.java).

    `handleTransactionEvent` checks the loosely-typed event, saves a PENDING
    record, and hands the transaction to the processor. It catches every
    exception the save or the processor raises, so a delivery always ends
    normally: the outcome below says how. Whether the store accepts the save
    is a parameter: a rejected save (a data-integrity violation) is logged and
    processing goes on with whatever record was already stored. */
module AccountService {
  import opened Common
  import opened Ledger
  import opened EventPublisher
  import opened TransactionProcessor
  import opened RollbackHandler

  /** `getBalance`. */
  function GetBalance(s: Store, accountId: Option<string>): (r: Result<int>)
    ensures !Present(accountId) ==> r == Err(IllegalArgument("Account ID must not be null"))
    ensures Present(accountId) ==> (r.Ok? <==> accountId.value in s.balances)
    ensures Present(accountId) && accountId.value !in s.balances ==> r == Err(AccountNotFound(accountId.value))
    ensures r.Ok? ==> r.value == s.balances[accountId.value]
  {
    if !Present(accountId) then Err(IllegalArgument("Account ID must not be null"))
    else if accountId.value !in s.balances then Err(AccountNotFound(accountId.value))
    else Ok(s.balances[accountId.value])
  }

  /** Why an intent event was logged and dropped, in the order of the checks. */
  datatype DropReason =
    | MissingEventType
    | UnknownEventType(eventType: string)
    | MissingRequiredFields
    | InvalidAmount
    | InvalidTransactionType(transactionType: string)
    | MissingTransferAccounts
    | MissingAccountId
    | AlreadySettled   // only the status-guarded variant in module Saga drops for this

  /** The fields of an intent event that passed every check. */
  datatype Intent = Intent(transactionId: string, transactionType: TxType, fromAccountId: Option<string>,
                           toAccountId: Option<string>, accountId: Option<string>, amount: int)

  /** A known type, with the participants that type needs. */
  predicate ValidIntent(i: Intent) {
    && !i.transactionType.Unrecognised?
    && (i.transactionType.Transfer? ==> i.fromAccountId.Some? && i.toAccountId.Some?)
    && (!i.transactionType.Transfer? ==> i.accountId.Some?)
  }

  datatype Parsed = Valid(intent: Intent) | Invalid(reason: DropReason)

  /** The checks `handleTransactionEvent` makes before it touches the store,
      in source order; the first failing one decides. */
  function ParseIntent(e: Event): (r: Parsed)
    ensures e.eventType.None? ==> r == Invalid(MissingEventType)
    ensures e.eventType.Some? && e.eventType.value !in InitiatedTypes ==>
              r == Invalid(UnknownEventType(e.eventType.value))
    ensures (e.eventType.Some? && e.eventType.value in InitiatedTypes
             && (e.transactionId.None? || e.transactionType.None? || e.amount.None?)) ==>
              r == Invalid(MissingRequiredFields)
    ensures (e.eventType.Some? && e.eventType.value in InitiatedTypes
             && e.transactionId.Some? && e.transactionType.Some? && e.amount.Some?
             && e.amount.value.Malformed?) ==>
              r == Invalid(InvalidAmount)
    ensures (e.eventType.Some? && e.eventType.value in InitiatedTypes
             && e.transactionId.Some? && e.transactionType.Some? && e.amount.Some?
             && e.amount.value.Decimal?
             && e.transactionType.value !in KnownTypeNames) ==>
              r == Invalid(InvalidTransactionType(e.transactionType.value))
    ensures (e.eventType.Some? && e.eventType.value in InitiatedTypes
             && e.transactionId.Some? && e.transactionType.Some? && e.amount.Some?
             && e.amount.value.Decimal?
             && e.transactionType.value == "TRANSFER"
             && (e.fromAccountId.None? || e.toAccountId.None?)) ==>
              r == Invalid(MissingTransferAccounts)
    ensures (e.eventType.Some? && e.eventType.value in InitiatedTypes
             && e.transactionId.Some? && e.transactionType.Some? && e.amount.Some?
             && e.amount.value.Decimal?
             && e.transactionType.value in KnownTypeNames && e.transactionType.value != "TRANSFER"
             && e.accountId.None?) ==>
              r == Invalid(MissingAccountId)
    ensures r.Valid? <==>
      && e.eventType.Some? && e.eventType.value in InitiatedTypes
      && e.transactionId.Some? && e.transactionType.Some? && e.amount.Some?
      && e.amount.value.Decimal?
      && e.transactionType.value in KnownTypeNames
      && (e.transactionType.value == "TRANSFER" ==> e.fromAccountId.Some? && e.toAccountId.Some?)
      && (e.transactionType.value != "TRANSFER" ==> e.accountId.Some?)
    ensures r.Valid? ==>
      && ValidIntent(r.intent)
      && r.intent == Intent(e.transactionId.value, ParseType(e.transactionType.value), e.fromAccountId,
                            e.toAccountId, e.accountId, e.amount.value.cents)
  {
    if e.eventType.None? then Invalid(MissingEventType)
    else if e.eventType.value !in InitiatedTypes then Invalid(UnknownEventType(e.eventType.value))
    else if e.transactionId.None? || e.transactionType.None? || e.amount.None? then Invalid(MissingRequiredFields)
    else if e.amount.value.Malformed? then Invalid(InvalidAmount)
    else if e.transactionType.value !in KnownTypeNames then
      Invalid(InvalidTransactionType(e.transactionType.value))
    else if e.transactionType.value == "TRANSFER" && (e.fromAccountId.None? || e.toAccountId.None?) then
      Invalid(MissingTransferAccounts)
    else if e.transactionType.value != "TRANSFER" && e.accountId.None? then Invalid(MissingAccountId)
    else Valid(Intent(e.transactionId.value, ParseType(e.transactionType.value), e.fromAccountId,
                      e.toAccountId, e.accountId, e.amount.value.cents))
  }

  /** The PENDING record built from the event before dispatch. */
  function PendingRecord(i: Intent): Transaction {
    NewTransaction(i.transactionId, i.fromAccountId, i.toAccountId, i.accountId, i.amount, i.transactionType)
  }

  /** The store after the save attempt. */
  function SavePending(s: Store, i: Intent, saveAccepted: bool): (r: Store)
    ensures r.balances == s.balances
    ensures saveAccepted ==> r.records == Save(s.records, PendingRecord(i))
    ensures !saveAccepted ==> r == s
  {
    if saveAccepted then Store(s.balances, Save(s.records, PendingRecord(i))) else s
  }

  /** Exactly one processor call, chosen by `transactionType` with the
      event's id, participants and amount. (The source's final `else` branch
      is the withdrawal: the checks before it leave no other type.) */
  function Dispatch(s: Store, i: Intent): (p: Processed)
    requires ValidIntent(i)
    ensures WellBehaved(s, i.transactionId, p)
    ensures i.transactionType.Transfer? ==>
              p == ProcessTransfer(s, i.transactionId, i.fromAccountId.value, i.toAccountId.value, i.amount)
    ensures i.transactionType.Deposit? ==> p == ProcessDeposit(s, i.transactionId, i.accountId.value, i.amount)
    ensures i.transactionType.Withdrawal? ==>
              p == ProcessWithdrawal(s, i.transactionId, i.accountId.value, i.amount)
  {
    match i.transactionType
    case Transfer => ProcessTransfer(s, i.transactionId, i.fromAccountId.value, i.toAccountId.value, i.amount)
    case Deposit => ProcessDeposit(s, i.transactionId, i.accountId.value, i.amount)
    case Withdrawal => ProcessWithdrawal(s, i.transactionId, i.accountId.value, i.amount)
  }

  /** How a delivery ended: dropped by a check, failed inside the processor
      (logged), or completed. */
  datatype Outcome = Dropped(reason: DropReason) | Failed(error: Error) | Done(receipt: Receipt)

  /** The store afterwards, the messages sent, and how the delivery ended. */
  datatype Delivery = Delivery(store: Store, sent: seq<Message>, outcome: Outcome)

  /** `handleTransactionEvent`. */
  function HandleTransactionEvent(s: Store, e: Event, saveAccepted: bool): (d: Delivery)
    ensures d.outcome.Dropped? <==> ParseIntent(e).Invalid?
    ensures d.outcome.Dropped? ==> d == Delivery(s, [], Dropped(ParseIntent(e).reason))
    ensures |d.sent| <= 1
    ensures ParseIntent(e).Valid? ==>
      var i := ParseIntent(e).intent;
      var p := Dispatch(SavePending(s, i, saveAccepted), i);
      && d.store == p.store && d.sent == p.sent
      && (d.outcome.Done? <==> p.result.Ok?)
      && (d.outcome.Failed? ==> d.store == SavePending(s, i, saveAccepted))
      && (d.outcome.Done? ==>
            && d.store.records == SavePending(s, i, saveAccepted).records[i.transactionId :=
                 SavePending(s, i, saveAccepted).records[i.transactionId].(status := Completed)]
            && d.sent[0].topic == TransactionTopic)
    ensures d.outcome.Done? && saveAccepted ==>
      var i := ParseIntent(e).intent;
      d.store.records[i.transactionId] == PendingRecord(i).(status := Completed)
  {
    match ParseIntent(e)
    case Invalid(reason) => Delivery(s, [], Dropped(reason))
    case Valid(i) =>
      var p := Dispatch(SavePending(s, i, saveAccepted), i);
      Delivery(p.store, p.sent, if p.result.Ok? then Done(p.result.value) else Failed(p.result.error))
  }

  /** `handleRollbackEvent`: the event goes to the rollback handler as it is. */
  function HandleRollbackEvent(s: Store, e: Event): (c: Compensation)
    ensures c == HandleRollback(s, e)
  {
    HandleRollback(s, e)
  }

  /** Dispatch is by `transactionType`: two events that differ only in which
      `*_INITIATED` name they carry are handled identically. */
  lemma DispatchIgnoresEventType(s: Store, e: Event, otherType: string, saveAccepted: bool)
    requires e.eventType.Some? && e.eventType.value in InitiatedTypes && otherType in InitiatedTypes
    ensures HandleTransactionEvent(s, e.(eventType := Some(otherType)), saveAccepted)
            == HandleTransactionEvent(s, e, saveAccepted)
  {
  }
}

=== FILE: events.dfy ===
/** Events on the channel between the two services and the processing
    service's `EventPublisher`
    (backend/account-service .../domain/service/EventPublisher.java).

    An event is the loosely-typed `Map<String, Object>` the services exchange;
    a key that is absent and a key mapped to `null` both read back as `None`.
    Amounts travel as decimals; whether one parses is decided by the value
    itself (`Malformed` never parses), so the decimal parser is not modelled. */
module EventPublisher {
  import opened Common

  /** An amount field: a decimal, in cents, or text that does not parse. */
  datatype Amount = Decimal(cents: int) | Malformed(text: string)

  datatype Event = Event(
    eventType: Option<string>,
    transactionId: Option<string>,
    fromAccountId: Option<string>,
    toAccountId: Option<string>,
    accountId: Option<string>,
    amount: Option<Amount>,
    transactionType: Option<string>,
    status: Option<string>)

  /** One `kafkaTemplate.send(topic, key, event)`. */
  datatype Message = Message(topic: string, key: string, event: Event)

  const TransactionTopic: string := "transaction-events"
  const RollbackTopic: string := "rollback-events"

  /** The intent event types the processing service consumes. */
  const InitiatedTypes: set<string> := {"TRANSFER_INITIATED", "DEPOSIT_INITIATED", "WITHDRAWAL_INITIATED"}

  /** `publishCompletedEvent`: the completion event, keyed by the transaction id. */
  function PublishCompleted(transactionId: string, transactionType: string, fromAccountId: Option<string>,
                            toAccountId: Option<string>, accountId: Option<string>, amount: int): (m: Message)
    ensures m.topic == TransactionTopic && m.key == transactionId
    ensures m.event.eventType == Some(transactionType + "_COMPLETED")
    ensures m.event.status == Some("COMPLETED")
    ensures m.event.transactionId == Some(transactionId) && m.event.transactionType == Some(transactionType)
    ensures m.event.fromAccountId == fromAccountId && m.event.toAccountId == toAccountId
    ensures m.event.accountId == accountId && m.event.amount == Some(Decimal(amount))
    ensures m.event.eventType.value !in InitiatedTypes
  {
    CompletedIsNotInitiated(transactionType);
    var event := Event(Some(transactionType + "_COMPLETED"), Some(transactionId), fromAccountId, toAccountId,
                       accountId, Some(Decimal(amount)), Some(transactionType), Some("COMPLETED"));
    Message(TransactionTopic, transactionId, event)
  }

  /** `publishRollbackEvent`: the compensation request, which has no status field. */
  function PublishRollback(transactionId: string, transactionType: string, fromAccountId: Option<string>,
                           toAccountId: Option<string>, accountId: Option<string>, amount: int): (m: Message)
    ensures m.topic == RollbackTopic && m.key == transactionId
    ensures m.event.eventType == Some("ROLLBACK") && m.event.status == None
    ensures m.event.transactionId == Some(transactionId) && m.event.transactionType == Some(transactionType)
    ensures m.event.fromAccountId == fromAccountId && m.event.toAccountId == toAccountId
    ensures m.event.accountId == accountId && m.event.amount == Some(Decimal(amount))
  {
    var event := Event(Some("ROLLBACK"), Some(transactionId), fromAccountId, toAccountId,
                       accountId, Some(Decimal(amount)), Some(transactionType), None);
    Message(RollbackTopic, transactionId, event)
  }

  /** Whatever the transaction type, `<type>_COMPLETED` is none of the three
      `*_INITIATED` names: the character just after the type's own name is
      'C' in the one and 'I' in the others. */
  lemma CompletedIsNotInitiated(transactionType: string)
    ensures transactionType + "_COMPLETED" !in InitiatedTypes
  {
    var s := transactionType + "_COMPLETED";
    var n := |transactionType|;
    assert s[n + 1] == 'C';
    if |s| == 18 {
      assert "TRANSFER_INITIATED"[n + 1] == 'I';
    }
    if |s| == 17 {
      assert "DEPOSIT_INITIATED"[n + 1] == 'I';
    }
    if |s| == 20 {
      assert "WITHDRAWAL_INITIATED"[n + 1] == 'I';
    }
  }
}

=== FILE: ledger.dfy ===
/** The processing service's persistent state: the `Transaction` record
    (backend/account-service .../domain/entity/Transaction.java), account
    balances in integer cents, and the money total of a balance map. */
module Ledger {
  import opened Common

  /** The record's `transactionType` column. The consumer only writes the
      three known names, but the column is a free string and the rollback
      handler has a branch for any other value. */
  datatype TxType = Transfer | Deposit | Withdrawal | Unrecognised(name: string)

  const KnownTypeNames: set<string> := {"TRANSFER", "DEPOSIT", "WITHDRAWAL"}

  function TypeName(t: TxType): string {
    match t
    case Transfer => "TRANSFER"
    case Deposit => "DEPOSIT"
    case Withdrawal => "WITHDRAWAL"
    case Unrecognised(name) => name
  }

  /** Reads a `transactionType` string back into a `TxType`. */
  function ParseType(name: string): (t: TxType)
    ensures TypeName(t) == name
    ensures t.Unrecognised? <==> name !in KnownTypeNames
  {
    if name == "TRANSFER" then Transfer
    else if name == "DEPOSIT" then Deposit
    else if name == "WITHDRAWAL" then Withdrawal
    else Unrecognised(name)
  }

  /** A `TxType` whose name could have been read back by `ParseType`. */
  predicate CanonicalType(t: TxType) {
    t.Unrecognised? ==> t.name !in KnownTypeNames
  }

  lemma ParseTypeName(t: TxType)
    requires CanonicalType(t)
    ensures ParseType(TypeName(t)) == t
  {
  }

  /** The `status` column; the code writes only these three values. */
  datatype Status = Pending | Completed | RolledBack

  /** The transitions of the life cycle PENDING -> COMPLETED -> ROLLED_BACK,
      including staying put. */
  predicate Advances(before: Status, after: Status) {
    || before == after
    || (before == Pending && after == Completed)
    || (before == Completed && after == RolledBack)
  }

  /** A transaction record. `amount` is in cents (the column has scale 2);
      `amount` and `transactionType` are non-null columns, the three
      participant columns are nullable. */
  datatype Transaction = Transaction(
    transactionId: string,
    fromAccountId: Option<string>,
    toAccountId: Option<string>,
    accountId: Option<string>,
    amount: int,
    transactionType: TxType,
    status: Status)

  /** `new Transaction()` with its fields set: the status defaults to PENDING. */
  function NewTransaction(transactionId: string, fromAccountId: Option<string>, toAccountId: Option<string>,
                          accountId: Option<string>, amount: int, transactionType: TxType): (t: Transaction)
    ensures t.status == Pending
    ensures t.transactionId == transactionId && t.amount == amount && t.transactionType == transactionType
    ensures t.fromAccountId == fromAccountId && t.toAccountId == toAccountId && t.accountId == accountId
  {
    Transaction(transactionId, fromAccountId, toAccountId, accountId, amount, transactionType, Pending)
  }

  /** Every record is stored under its own id (`transactionId` is the primary key). */
  ghost predicate KeyedById(records: map<string, Transaction>) {
    forall id :: id in records ==> records[id].transactionId == id
  }

  /** `transactionRepository.save`: an upsert by primary key. */
  function Save(records: map<string, Transaction>, t: Transaction): (r: map<string, Transaction>)
    ensures r.Keys == records.Keys + {t.transactionId}
    ensures r[t.transactionId] == t
    ensures forall id :: id in records && id != t.transactionId ==> r[id] == records[id]
    ensures KeyedById(records) ==> KeyedById(r)
  {
    records[t.transactionId := t]
  }

  /** Every status in `before` has advanced along the life cycle in `after`
      and no record has disappeared. */
  ghost predicate StatusesAdvance(before: map<string, Transaction>, after: map<string, Transaction>) {
    forall id :: id in before ==> id in after && Advances(before[id].status, after[id].status)
  }

  /** The processing service's store: balances by account id and
      transaction records by transaction id. */
  datatype Store = Store(balances: map<string, int>, records: map<string, Transaction>)

  /** Some key of a non-empty set, always the same one for the same set. */
  ghost function Pick(keys: set<string>): (k: string)
    requires keys != {}
    ensures k in keys
  {
    var k :| k in keys; k
  }

  /** The total money held in a balance map. */
  ghost function Total(m: map<string, int>): int
    decreases m.Keys
  {
    if m.Keys == {} then 0
    else
      var k := Pick(m.Keys);
      assert (m - {k}).Keys < m.Keys;
      m[k] + Total(m - {k})
  }

  /** Any key, not only the one `Total` happens to pick, can be taken out first. */
  lemma {:induction false} TotalRemove(m: map<string, int>, k: string)
    requires k in m
    ensures Total(m) == m[k] + Total(m - {k})
    decreases m.Keys
  {
    var p := Pick(m.Keys);
    if p != k {
      assert (m - {p}).Keys < m.Keys;
      assert (m - {k}).Keys < m.Keys;
      TotalRemove(m - {p}, k);
      TotalRemove(m - {k}, p);
      assert m - {p} - {k} == m - {k} - {p};
    }
  }

  /** Overwriting one balance changes the total by exactly the difference. */
  lemma TotalUpdate(m: map<string, int>, k: string, v: int)
    requires k in m
    ensures Total(m[k := v]) == Total(m) - m[k] + v
  {
    TotalRemove(m, k);
    TotalRemove(m[k := v], k);
    assert m[k := v] - {k} == m - {k};
  }
}

=== FILE: processor.dfy ===
/** The processing service's `TransactionProcessor`
    (backend/account-service .../domain/service/TransactionProcessor.java).

    Each `process*` method is `@Transactional`: when it throws, every balance
    and record change it made is undone, but a ROLLBACK event it sent before
    throwing has already left. Within one unit of work the repository hands
    out one entity per id, so a transfer whose two ids coincide debits and
    then credits the same row, which the model reproduces by applying the two
    updates one after the other. The processor does not look at the record's
    status before it mutates balances. */
module TransactionProcessor {
  import opened Common
  import opened Ledger
  import opened EventPublisher

  /** The `{transactionId, status, transactionType}` map a successful step returns. */
  datatype Receipt = Receipt(transactionId: string, status: string, transactionType: string)

  /** The store afterwards, the messages sent, and the return value or exception. */
  datatype Processed = Processed(store: Store, sent: seq<Message>, result: Result<Receipt>)

  /** `completeTransaction`, applied after the balances of `s` were replaced
      by `balances`: marks the record COMPLETED and announces it with the
      participants and amount stored on the record. */
  function CompleteTransaction(s: Store, balances: map<string, int>, transactionId: string,
                               transactionType: string): (p: Processed)
    ensures p.result.Ok? <==> transactionId in s.records
    ensures p.result.Err? ==> p == Processed(s, [], Err(IllegalState("Transaction not found: " + transactionId)))
    ensures p.result.Ok? ==>
      var t := s.records[transactionId];
      && p.store.balances == balances
      && p.store.records == s.records[transactionId := t.(status := Completed)]
      && p.sent == [PublishCompleted(transactionId, transactionType, t.fromAccountId, t.toAccountId,
                                     t.accountId, t.amount)]
      && p.result.value == Receipt(transactionId, "COMPLETED", transactionType)
  {
    if transactionId !in s.records then
      Processed(s, [], Err(IllegalState("Transaction not found: " + transactionId)))
    else
      var t := s.records[transactionId];
      Processed(Store(balances, s.records[transactionId := t.(status := Completed)]),
                [PublishCompleted(transactionId, transactionType, t.fromAccountId, t.toAccountId,
                                  t.accountId, t.amount)],
                Ok(Receipt(transactionId, "COMPLETED", transactionType)))
  }

  /** What every step promises about the store and the channel: all or
      nothing, at most one message, and only the record of this transaction
      changes, to COMPLETED. */
  ghost predicate WellBehaved(s: Store, transactionId: string, p: Processed) {
    && |p.sent| <= 1
    && (p.result.Err? ==> p.store == s)
    && (p.result.Ok? ==>
          && transactionId in s.records
          && p.store.balances.Keys == s.balances.Keys
          && p.store.records == s.records[transactionId := s.records[transactionId].(status := Completed)]
          && |p.sent| == 1 && p.sent[0].topic == TransactionTopic && p.sent[0].key == transactionId)
  }

  /** `processTransfer`. */
  function ProcessTransfer(s: Store, transactionId: string, from: string, to: string, amount: int): (p: Processed)
    ensures WellBehaved(s, transactionId, p)
    ensures from !in s.balances ==> p == Processed(s, [], Err(AccountNotFound(from)))
    ensures from in s.balances && to !in s.balances ==> p == Processed(s, [], Err(AccountNotFound(to)))
    ensures from in s.balances && to in s.balances && s.balances[from] < amount ==>
      p == Processed(s, [PublishRollback(transactionId, "TRANSFER", Some(from), Some(to), None, amount)],
                     Err(IllegalState("Insufficient balance for transfer: " + transactionId)))
    ensures p.result.Ok? <==> from in s.balances && to in s.balances && s.balances[from] >= amount
                              && transactionId in s.records
    ensures p.result.Ok? ==>
      && p.store.balances[from] + p.store.balances[to] == s.balances[from] + s.balances[to]
      && (from != to ==> p.store.balances[from] == s.balances[from] - amount >= 0)
      && (from != to ==> p.store.balances[to] == s.balances[to] + amount)
      && (from == to ==> p.store.balances == s.balances)
      && (forall k :: k in s.balances && k != from && k != to ==> p.store.balances[k] == s.balances[k])
    ensures from in s.balances && to in s.balances && s.balances[from] >= amount && transactionId !in s.records ==>
      p == Processed(s, [], Err(IllegalState("Transaction not found: " + transactionId)))
    ensures p.result.Ok? ==>
      var t := s.records[transactionId];
      && p.sent == [PublishCompleted(transactionId, "TRANSFER", t.fromAccountId, t.toAccountId, t.accountId, t.amount)]
      && p.result.value == Receipt(transactionId, "COMPLETED", "TRANSFER")
  {
    if from !in s.balances then Processed(s, [], Err(AccountNotFound(from)))
    else if to !in s.balances then Processed(s, [], Err(AccountNotFound(to)))
    else if s.balances[from] < amount then
      Processed(s, [PublishRollback(transactionId, "TRANSFER", Some(from), Some(to), None, amount)],
                Err(IllegalState("Insufficient balance for transfer: " + transactionId)))
    else
      var debited := s.balances[from := s.balances[from] - amount];
      var credited := debited[to := debited[to] + amount];
      CompleteTransaction(s, credited, transactionId, "TRANSFER")
  }

  /** `processDeposit`: credits the account without any check on the amount. */
  function ProcessDeposit(s: Store, transactionId: string, accountId: string, amount: int): (p: Processed)
    ensures WellBehaved(s, transactionId, p)
    ensures accountId !in s.balances ==> p == Processed(s, [], Err(AccountNotFound(accountId)))
    ensures p.result.Ok? <==> accountId in s.balances && transactionId in s.records
    ensures p.result.Ok? ==> p.store.balances == s.balances[accountId := s.balances[accountId] + amount]
    ensures accountId in s.balances && transactionId !in s.records ==>
      p == Processed(s, [], Err(IllegalState("Transaction not found: " + transactionId)))
    ensures p.result.Ok? ==>
      var t := s.records[transactionId];
      && p.sent == [PublishCompleted(transactionId, "DEPOSIT", t.fromAccountId, t.toAccountId, t.accountId, t.amount)]
      && p.result.value == Receipt(transactionId, "COMPLETED", "DEPOSIT")
  {
    if accountId !in s.balances then Processed(s, [], Err(AccountNotFound(accountId)))
    else CompleteTransaction(s, s.balances[accountId := s.balances[accountId] + amount], transactionId, "DEPOSIT")
  }

  /** `processWithdrawal`: debits only what the balance covers. */
  function ProcessWithdrawal(s: Store, transactionId: string, accountId: string, amount: int): (p: Processed)
    ensures WellBehaved(s, transactionId, p)
    ensures accountId !in s.balances ==> p == Processed(s, [], Err(AccountNotFound(accountId)))
    ensures accountId in s.balances && s.balances[accountId] < amount ==>
      p == Processed(s, [PublishRollback(transactionId, "WITHDRAWAL", None, None, Some(accountId), amount)],
                     Err(IllegalState("Insufficient balance for withdrawal: " + transactionId)))
    ensures p.result.Ok? <==> accountId in s.balances && s.balances[accountId] >= amount
                              && transactionId in s.records
    ensures p.result.Ok? ==> p.store.balances == s.balances[accountId := s.balances[accountId] - amount]
    ensures p.result.Ok? ==> p.store.balances[accountId] >= 0
    ensures accountId in s.balances && s.balances[accountId] >= amount && transactionId !in s.records ==>
      p == Processed(s, [], Err(IllegalState("Transaction not found: " + transactionId)))
    ensures p.result.Ok? ==>
      var t := s.records[transactionId];
      && p.sent == [PublishCompleted(transactionId, "WITHDRAWAL", t.fromAccountId, t.toAccountId, t.accountId, t.amount)]
      && p.result.value == Receipt(transactionId, "COMPLETED", "WITHDRAWAL")
  {
    if accountId !in s.balances then Processed(s, [], Err(AccountNotFound(accountId)))
    else if s.balances[accountId] < amount then
      Processed(s, [PublishRollback(transactionId, "WITHDRAWAL", None, None, Some(accountId), amount)],
                Err(IllegalState("Insufficient balance for withdrawal: " + transactionId)))
    else CompleteTransaction(s, s.balances[accountId := s.balances[accountId] - amount], transactionId, "WITHDRAWAL")
  }

  /** A transfer moves money between accounts and never creates or destroys it. */
  lemma TransferConservesTotal(s: Store, transactionId: string, from: string, to: string, amount: int)
    ensures Total(ProcessTransfer(s, transactionId, from, to, amount).store.balances) == Total(s.balances)
  {
    var p := ProcessTransfer(s, transactionId, from, to, amount);
    if p.result.Ok? {
      var debited := s.balances[from := s.balances[from] - amount];
      TotalUpdate(s.balances, from, s.balances[from] - amount);
      TotalUpdate(debited, to, debited[to] + amount);
      assert p.store.balances == debited[to := debited[to] + amount];
    }
  }
}

=== FILE: rollback.dfy ===
/** The processing service's `TransactionRollbackHandler`
    (backend/account-service .../domain/service/TransactionRollbackHandler.java).

    One `@Transactional` call: it reverses a COMPLETED record's effect using
    the type, participants and amount stored on the record, never those in
    the event, marks the record ROLLED_BACK, and sends nothing. Reversing a
    deposit is not checked against the balance. */
module RollbackHandler {
  import opened Common
  import opened Ledger
  import opened EventPublisher

  /** Why an event was logged and discarded. */
  datatype Ignored = NotARollback | UnknownTransaction | NotCompleted

  datatype Reply = Skipped(reason: Ignored) | Reversed

  /** The store afterwards and the return value or exception. */
  datatype Compensation = Compensation(store: Store, result: Result<Reply>)

  /** `getAccount` on a participant column, which may be null. */
  function LookupAccount(balances: map<string, int>, accountId: Option<string>): (r: Result<string>)
    ensures r.Ok? <==> accountId.Some? && accountId.value in balances
    ensures r.Ok? ==> r.value == accountId.value
    ensures accountId.None? ==> r == Err(NullKey)
    ensures accountId.Some? && accountId.value !in balances ==> r == Err(AccountNotFound(accountId.value))
  {
    if accountId.None? then Err(NullKey)
    else if accountId.value !in balances then Err(AccountNotFound(accountId.value))
    else Ok(accountId.value)
  }

  /** The inverse of the balance change `t` made, applied to `balances`. */
  function Reverse(balances: map<string, int>, t: Transaction): (r: Result<map<string, int>>)
    ensures r.Ok? ==> r.value.Keys == balances.Keys
    ensures r.Ok? ==> forall k :: (k in balances && Some(k) != t.fromAccountId && Some(k) != t.toAccountId
                                   && Some(k) != t.accountId) ==> r.value[k] == balances[k]
    ensures t.transactionType.Transfer? ==>
      && (r.Ok? <==> LookupAccount(balances, t.fromAccountId).Ok? && LookupAccount(balances, t.toAccountId).Ok?)
      && (r.Ok? ==>
            var from := t.fromAccountId.value;
            var to := t.toAccountId.value;
            && r.value[from] + r.value[to] == balances[from] + balances[to]
            && (from != to ==> r.value[from] == balances[from] + t.amount
                               && r.value[to] == balances[to] - t.amount)
            && (from == to ==> r.value == balances)
            && (forall k :: k in balances && k != from && k != to ==> r.value[k] == balances[k]))
      && (LookupAccount(balances, t.fromAccountId).Err? ==> r == Err(LookupAccount(balances, t.fromAccountId).error))
      && (LookupAccount(balances, t.fromAccountId).Ok? && LookupAccount(balances, t.toAccountId).Err? ==>
            r == Err(LookupAccount(balances, t.toAccountId).error))
    ensures t.transactionType.Deposit? ==>
      && (r.Ok? <==> LookupAccount(balances, t.accountId).Ok?)
      && (r.Ok? ==> r.value == balances[t.accountId.value := balances[t.accountId.value] - t.amount])
      && (r.Err? ==> r == Err(LookupAccount(balances, t.accountId).error))
    ensures t.transactionType.Withdrawal? ==>
      && (r.Ok? <==> LookupAccount(balances, t.accountId).Ok?)
      && (r.Ok? ==> r.value == balances[t.accountId.value := balances[t.accountId.value] + t.amount])
      && (r.Err? ==> r == Err(LookupAccount(balances, t.accountId).error))
    ensures t.transactionType.Unrecognised? ==> r == Ok(balances)
  {
    match t.transactionType
    case Transfer =>
      var from :- LookupAccount(balances, t.fromAccountId);
      var to :- LookupAccount(balances, t.toAccountId);
      var credited := balances[from := balances[from] + t.amount];
      Ok(credited[to := credited[to] - t.amount])
    case Deposit =>
      var id :- LookupAccount(balances, t.accountId);
      Ok(balances[id := balances[id] - t.amount])
    case Withdrawal =>
      var id :- LookupAccount(balances, t.accountId);
      Ok(balances[id := balances[id] + t.amount])
    case Unrecognised(_) => Ok(balances)
  }

  /** `handleRollback`. */
  function HandleRollback(s: Store, e: Event): (c: Compensation)
    ensures c.result.Err? || c.result.value.Skipped? ==> c.store == s
    ensures e.eventType != Some("ROLLBACK") ==> c == Compensation(s, Ok(Skipped(NotARollback)))
    ensures e.eventType == Some("ROLLBACK") && e.transactionId.None? ==> c == Compensation(s, Err(NullKey))
    ensures e.eventType == Some("ROLLBACK") && e.transactionId.Some? && e.transactionId.value !in s.records ==>
              c == Compensation(s, Ok(Skipped(UnknownTransaction)))
    ensures e.eventType == Some("ROLLBACK") && e.transactionId.Some? && e.transactionId.value in s.records
            && s.records[e.transactionId.value].status != Completed ==>
              c == Compensation(s, Ok(Skipped(NotCompleted)))
    ensures c.result == Ok(Reversed) <==>
      && e.eventType == Some("ROLLBACK") && e.transactionId.Some? && e.transactionId.value in s.records
      && s.records[e.transactionId.value].status == Completed
      && Reverse(s.balances, s.records[e.transactionId.value]).Ok?
    ensures c.result == Ok(Reversed) ==>
      var id := e.transactionId.value;
      && c.store.balances == Reverse(s.balances, s.records[id]).value
      && c.store.records == s.records[id := s.records[id].(status := RolledBack)]
    ensures e.eventType == Some("ROLLBACK") && e.transactionId.Some? && e.transactionId.value in s.records
            && s.records[e.transactionId.value].status == Completed
            && Reverse(s.balances, s.records[e.transactionId.value]).Err? ==>
              c == Compensation(s, Err(Reverse(s.balances, s.records[e.transactionId.value]).error))
    ensures c.store.records.Keys == s.records.Keys
    ensures StatusesAdvance(s.records, c.store.records)
  {
    if e.eventType != Some("ROLLBACK") then Compensation(s, Ok(Skipped(NotARollback)))
    else if e.transactionId.None? then Compensation(s, Err(NullKey))
    else if e.transactionId.value !in s.records then Compensation(s, Ok(Skipped(UnknownTransaction)))
    else
      var id := e.transactionId.value;
      var t := s.records[id];
      if t.status != Completed then Compensation(s, Ok(Skipped(NotCompleted)))
      else match Reverse(s.balances, t)
        case Err(err) => Compensation(s, Err(err))
        case Ok(balances) => Compensation(Store(balances, s.records[id := t.(status := RolledBack)]), Ok(Reversed))
  }

  /** Only the event's type and transaction id matter; its amount and
      participants are never read. */
  lemma RollbackIgnoresEventPayload(s: Store, e1: Event, e2: Event)
    requires e1.eventType == e2.eventType && e1.transactionId == e2.transactionId
    ensures HandleRollback(s, e1) == HandleRollback(s, e2)
  {
  }

  /** Reversing a transfer neither creates nor destroys money. */
  lemma RollbackConservesTransferTotal(s: Store, e: Event)
    requires e.transactionId.Some? && e.transactionId.value in s.records
    requires s.records[e.transactionId.value].transactionType.Transfer?
    ensures Total(HandleRollback(s, e).store.balances) == Total(s.balances)
  {
    var c := HandleRollback(s, e);
    if c.result == Ok(Reversed) {
      var t := s.records[e.transactionId.value];
      var from := t.fromAccountId.value;
      var to := t.toAccountId.value;
      var credited := s.balances[from := s.balances[from] + t.amount];
      TotalUpdate(s.balances, from, s.balances[from] + t.amount);
      TotalUpdate(credited, to, credited[to] - t.amount);
      assert c.store.balances == credited[to := credited[to] - t.amount];
    }
  }

  /** A second rollback of the same transaction is discarded. */
  lemma SecondRollbackIgnored(s: Store, e: Event)
    requires HandleRollback(s, e).result == Ok(Reversed)
    ensures HandleRollback(HandleRollback(s, e).store, e)
            == Compensation(HandleRollback(s, e).store, Ok(Skipped(NotCompleted)))
  {
  }
}

=== FILE: saga.dfy ===
/** The two services and the channel between them, taken together: the
    saga-style choreography of intent, completion and compensation events.

    The channel is an append-only outbox of messages; consuming a message is
    one atomic step of the processing service. */
module Saga {
  import opened Common
  import opened Ledger
  import opened EventPublisher
  import BankingService
  import opened TransactionProcessor
  import opened RollbackHandler
  import opened AccountService

  datatype World = World(store: Store, outbox: seq<Message>)

  /** The processing service consumes one message from its two topics. */
  function Consume(w: World, m: Message, saveAccepted: bool): (w': World)
    ensures |w'.outbox| <= |w.outbox| + 1
    ensures |w'.outbox| >= |w.outbox| && w'.outbox[..|w.outbox|] == w.outbox
    ensures m.topic == RollbackTopic ==> w'.outbox == w.outbox
    ensures m.topic != TransactionTopic && m.topic != RollbackTopic ==> w' == w
    ensures w'.store.records.Keys >= w.store.records.Keys
  {
    if m.topic == TransactionTopic then
      var d := HandleTransactionEvent(w.store, m.event, saveAccepted);
      World(d.store, w.outbox + d.sent)
    else if m.topic == RollbackTopic then
      World(HandleRollbackEvent(w.store, m.event).store, w.outbox)
    else w
  }

  /** Every intent the orchestrator sends passes all of the consumer's checks
      and reaches the processor with the same id, participants and amount. */
  lemma InitiatedEventsAccepted(accounts: BankingService.Accounts, from: Option<string>, to: Option<string>,
                                amount: Option<int>, id: string, send: bool)
    ensures BankingService.InitiateTransfer(accounts, from, to, amount, id, send).Ok? ==>
      ParseIntent(BankingService.InitiateTransfer(accounts, from, to, amount, id, send).value.sent.event)
      == Valid(Intent(id, Transfer, from, to, None, amount.value))
    ensures BankingService.InitiateDeposit(accounts, from, amount, id, send).Ok? ==>
      ParseIntent(BankingService.InitiateDeposit(accounts, from, amount, id, send).value.sent.event)
      == Valid(Intent(id, Deposit, None, None, from, amount.value))
    ensures BankingService.InitiateWithdrawal(accounts, from, amount, id, send).Ok? ==>
      ParseIntent(BankingService.InitiateWithdrawal(accounts, from, amount, id, send).value.sent.event)
      == Valid(Intent(id, Withdrawal, None, None, from, amount.value))
  {
  }

  /** Whatever the processor sends back on the intent topic is a completion
      event, which the consumer reads back and drops: consuming it changes
      nothing, whether in the world the delivery left behind or in the one
      before it. */
  lemma CompletionEventsDropped(w: World, e: Event, saveAccepted: bool, saveAccepted': bool)
    ensures
      var d := HandleTransactionEvent(w.store, e, saveAccepted);
      var after := World(d.store, w.outbox + d.sent);
      forall m :: m in d.sent && m.topic == TransactionTopic ==>
        && ParseIntent(m.event) == Invalid(UnknownEventType(m.event.eventType.value))
        && Consume(w, m, saveAccepted') == w
        && Consume(after, m, saveAccepted') == after
  {
    var d := HandleTransactionEvent(w.store, e, saveAccepted);
    if ParseIntent(e).Valid? {
      var i := ParseIntent(e).intent;
      var saved := SavePending(w.store, i, saveAccepted);
      if i.transactionId in saved.records {
        var t := saved.records[i.transactionId];
        forall typeName: string | true
          ensures PublishCompleted(i.transactionId, typeName, t.fromAccountId, t.toAccountId, t.accountId,
                                   t.amount).event.eventType.value !in InitiatedTypes
        {
        }
      }
    }
  }

  /** When the PENDING save was accepted, a completed transaction rolled
      back by any ROLLBACK event for its id leaves every balance as it was
      before the intent was delivered, and the record ROLLED_BACK. */
  lemma ProcessThenRollbackRestores(s: Store, e: Event, rollback: Event)
    requires HandleTransactionEvent(s, e, true).outcome.Done?
    requires rollback.eventType == Some("ROLLBACK") && rollback.transactionId == e.transactionId
    ensures
      var c := HandleRollback(HandleTransactionEvent(s, e, true).store, rollback);
      && c.result == Ok(Reversed)
      && c.store.balances == s.balances
      && c.store.records[e.transactionId.value].status == RolledBack
  {
    var i := ParseIntent(e).intent;
    var saved := SavePending(s, i, true);
    var d := HandleTransactionEvent(s, e, true);
    var t := d.store.records[i.transactionId];
    assert t == PendingRecord(i).(status := Completed);
    var c := HandleRollback(d.store, rollback);
    match i.transactionType {
      case Transfer =>
        var from := i.fromAccountId.value;
        var to := i.toAccountId.value;
        assert c.store.balances == s.balances by {
          if from != to {
            assert forall k :: k in s.balances ==> c.store.balances[k] == s.balances[k];
          }
        }
      case Deposit =>
        assert c.store.balances == s.balances;
      case Withdrawal =>
        assert c.store.balances == s.balances;
    }
  }

  /** Without the accepted save the two sides can disagree: the processor
      moves the event's amount while the compensation reverses the amount of
      the record already stored under the id. With 100.00 stored, 200.00 in
      the event and 1000.00/500.00 before, a1 ends at 900.00. */
  lemma RejectedSaveBreaksRestore()
    ensures
      var stored := Transaction("t1", Some("a1"), Some("a2"), None, 10000, Transfer, Pending);
      var s := Store(map["a1" := 100000, "a2" := 50000], map["t1" := stored]);
      var d := HandleTransactionEvent(s, TransferIntent("t1", 20000), false);
      var c := HandleRollback(d.store, RollbackRequest("t1"));
      && d.outcome.Done?
      && c.result == Ok(Reversed)
      && c.store.balances == map["a1" := 90000, "a2" := 60000]
      && c.store.balances != s.balances
  {
    var stored := Transaction("t1", Some("a1"), Some("a2"), None, 10000, Transfer, Pending);
    var s := Store(map["a1" := 100000, "a2" := 50000], map["t1" := stored]);
    var e := TransferIntent("t1", 20000);
    assert ParseIntent(e) == Valid(Intent("t1", Transfer, Some("a1"), Some("a2"), None, 20000));
    var d := HandleTransactionEvent(s, e, false);
    assert d.store.balances == map["a1" := 80000, "a2" := 70000];
    assert d.store.records["t1"] == stored.(status := Completed);
    var c := HandleRollback(d.store, RollbackRequest("t1"));
    assert c.store.balances == map["a1" := 90000, "a2" := 60000];
    assert c.store.balances["a1"] != s.balances["a1"];
  }

  /** When the PENDING save was accepted, the ROLLBACK the processor sends
      on insufficient funds finds the record still PENDING and is discarded:
      nothing is compensated. */
  lemma InsufficientFundsRollbackDiscarded(s: Store, e: Event)
    requires HandleTransactionEvent(s, e, true).outcome.Failed?
    requires |HandleTransactionEvent(s, e, true).sent| == 1
    ensures
      var d := HandleTransactionEvent(s, e, true);
      && d.sent[0].topic == RollbackTopic
      && d.store.records[e.transactionId.value].status == Pending
      && d.store.balances == s.balances
      && HandleRollback(d.store, d.sent[0].event) == Compensation(d.store, Ok(Skipped(NotCompleted)))
  {
    var i := ParseIntent(e).intent;
    var d := HandleTransactionEvent(s, e, true);
    assert d.store == SavePending(s, i, true);
    assert d.sent[0].event.transactionId == Some(i.transactionId);
  }

  /** Without the accepted save that ROLLBACK can compensate an earlier
      transaction: a COMPLETED transfer t1 of 200.00 is stored, a second
      intent under id t1 asks for 2000.00, its save is rejected, the
      processor finds 1000.00 too little and sends a ROLLBACK, and the
      rollback reverses the stored 200.00: 1000.00/500.00 become
      1200.00/300.00. */
  lemma RejectedSaveRollbackReversesEarlier()
    ensures
      var stored := Transaction("t1", Some("a1"), Some("a2"), None, 20000, Transfer, Completed);
      var s := Store(map["a1" := 100000, "a2" := 50000], map["t1" := stored]);
      var d := HandleTransactionEvent(s, TransferIntent("t1", 200000), false);
      var c := HandleRollback(d.store, d.sent[0].event);
      && d.outcome.Failed?
      && |d.sent| == 1 && d.sent[0].topic == RollbackTopic
      && c.result == Ok(Reversed)
      && c.store.balances == map["a1" := 120000, "a2" := 30000]
  {
    var stored := Transaction("t1", Some("a1"), Some("a2"), None, 20000, Transfer, Completed);
    var s := Store(map["a1" := 100000, "a2" := 50000], map["t1" := stored]);
    var e := TransferIntent("t1", 200000);
    assert ParseIntent(e) == Valid(Intent("t1", Transfer, Some("a1"), Some("a2"), None, 200000));
    var d := HandleTransactionEvent(s, e, false);
    assert d.store == s;
    assert d.sent == [PublishRollback("t1", "TRANSFER", Some("a1"), Some("a2"), None, 200000)];
    var c := HandleRollback(d.store, d.sent[0].event);
    assert c.store.balances == map["a1" := 120000, "a2" := 30000];
  }

  /** The initial store of the scenarios below: a1 = 1000.00, a2 = 500.00. */
  function ScenarioStore(): Store {
    Store(map["a1" := 100000, "a2" := 50000], map[])
  }

  function TransferIntent(id: string, amount: int): Event {
    Event(Some("TRANSFER_INITIATED"), Some(id), Some("a1"), Some("a2"), None, Some(Decimal(amount)),
          Some("TRANSFER"), Some("PENDING"))
  }

  function SingleIntent(eventType: string, transactionType: string, id: string, amount: int): Event {
    Event(Some(eventType), Some(id), None, None, Some("a1"), Some(Decimal(amount)), Some(transactionType),
          Some("PENDING"))
  }

  function RollbackRequest(id: string): Event {
    Event(Some("ROLLBACK"), Some(id), None, None, None, None, None, None)
  }

  /** Transfer 200.00 from a1 to a2, then roll it back: 800.00/700.00, then
      1000.00/500.00 again. */
  lemma TransferScenario()
    ensures
      var d := HandleTransactionEvent(ScenarioStore(), TransferIntent("t1", 20000), true);
      var c := HandleRollback(d.store, RollbackRequest("t1"));
      && d.outcome == Done(Receipt("t1", "COMPLETED", "TRANSFER"))
      && d.store.balances == map["a1" := 80000, "a2" := 70000]
      && d.store.records["t1"].status == Completed
      && c.store.balances == map["a1" := 100000, "a2" := 50000]
      && c.store.records["t1"].status == RolledBack
  {
    var d := HandleTransactionEvent(ScenarioStore(), TransferIntent("t1", 20000), true);
    assert d.store.balances == map["a1" := 80000, "a2" := 70000];
  }

  /** Transfer 2000.00 from a1: nothing moves, the record stays PENDING and
      one ROLLBACK is sent. */
  lemma InsufficientTransferScenario()
    ensures
      var d := HandleTransactionEvent(ScenarioStore(), TransferIntent("t2", 200000), true);
      && d.outcome == Failed(IllegalState("Insufficient balance for transfer: " + "t2"))
      && d.store.balances == ScenarioStore().balances
      && d.store.records["t2"].status == Pending
      && |d.sent| == 1 && d.sent[0].topic == RollbackTopic
  {
    var e := TransferIntent("t2", 200000);
    assert ParseIntent(e) == Valid(Intent("t2", Transfer, Some("a1"), Some("a2"), None, 200000));
    var saved := SavePending(ScenarioStore(), ParseIntent(e).intent, true);
    assert saved.balances["a1"] < 200000;
  }

  /** Deposit 100.00 into a1 = 1000.00 gives 1100.00; withdrawing 2000.00
      from a1 is refused and leaves 1000.00; withdrawing 100.00 leaves 900.00. */
  lemma SingleAccountScenarios()
    ensures
      var d := HandleTransactionEvent(ScenarioStore(), SingleIntent("DEPOSIT_INITIATED", "DEPOSIT", "d1", 10000), true);
      d.outcome.Done? && d.store.balances["a1"] == 110000 && d.store.records["d1"].status == Completed
    ensures
      var d := HandleTransactionEvent(ScenarioStore(),
                                      SingleIntent("WITHDRAWAL_INITIATED", "WITHDRAWAL", "w1", 200000), true);
      d.outcome.Failed? && d.store.balances == ScenarioStore().balances && d.store.records["w1"].status == Pending
    ensures
      var d := HandleTransactionEvent(ScenarioStore(), SingleIntent("WITHDRAWAL_INITIATED", "WITHDRAWAL", "w2", 10000), true);
      d.outcome.Done? && d.store.balances["a1"] == 90000 && d.store.records["w2"].status == Completed
  {
  }

  /** A ROLLBACK for an id with no record changes nothing. */
  lemma UnknownRollbackScenario()
    ensures HandleRollback(ScenarioStore(), RollbackRequest("missing"))
            == Compensation(ScenarioStore(), Ok(Skipped(UnknownTransaction)))
  {
  }

  // ---------------------------------------------------------------------
  // Redelivery. The consumer re-saves a PENDING record on every delivery
  // and the processor never reads the status before it mutates, so a
  // redelivered intent is applied again.

  /** As written: delivering the same transfer intent twice moves the money
      twice. */
  lemma RedeliveryReappliesTransfer()
    ensures
      var e := TransferIntent("t1", 20000);
      var d1 := HandleTransactionEvent(ScenarioStore(), e, true);
      var d2 := HandleTransactionEvent(d1.store, e, true);
      && d1.store.balances["a1"] == 80000
      && d2.outcome.Done?
      && d2.store.balances["a1"] == 60000
  {
    var e := TransferIntent("t1", 20000);
    assert ParseIntent(e) == Valid(Intent("t1", Transfer, Some("a1"), Some("a2"), None, 20000));
    var d1 := HandleTransactionEvent(ScenarioStore(), e, true);
    assert d1.store.balances == map["a1" := 80000, "a2" := 70000];
    var d2 := HandleTransactionEvent(d1.store, e, true);
    assert d2.store.balances == map["a1" := 60000, "a2" := 90000];
  }

  /** As written: a redelivery after a rollback drags the ROLLED_BACK record
      back to PENDING and then COMPLETED, against the status order. */
  lemma RedeliveryRevivesRolledBack()
    ensures
      var e := TransferIntent("t1", 20000);
      var d1 := HandleTransactionEvent(ScenarioStore(), e, true);
      var c := HandleRollback(d1.store, RollbackRequest("t1"));
      var d2 := HandleTransactionEvent(c.store, e, true);
      && c.store.records["t1"].status == RolledBack
      && d2.store.records["t1"].status == Completed
      && !StatusesAdvance(c.store.records, d2.store.records)
  {
    var e := TransferIntent("t1", 20000);
    assert ParseIntent(e) == Valid(Intent("t1", Transfer, Some("a1"), Some("a2"), None, 20000));
    var d1 := HandleTransactionEvent(ScenarioStore(), e, true);
    assert d1.store.balances == map["a1" := 80000, "a2" := 70000];
    var c := HandleRollback(d1.store, RollbackRequest("t1"));
    assert c.store.balances == map["a1" := 100000, "a2" := 50000];
  }

  /** The consumer with a status check before it saves: an intent whose
      record has already left PENDING is dropped before anything is saved or
      processed. */
  function HandleTransactionEventGuarded(s: Store, e: Event, saveAccepted: bool): (d: Delivery)
    ensures StatusesAdvance(s.records, d.store.records)
    ensures ParseIntent(e).Valid? && ParseIntent(e).intent.transactionId in s.records
            && s.records[ParseIntent(e).intent.transactionId].status != Pending ==>
              d == Delivery(s, [], Dropped(AlreadySettled))
    ensures d.outcome.Done? ==> ParseIntent(e).Valid?
    ensures d.outcome.Done? && ParseIntent(e).Valid? ==>
      var id := ParseIntent(e).intent.transactionId;
      id in d.store.records && d.store.records[id].status == Completed
  {
    match ParseIntent(e)
    case Invalid(reason) => Delivery(s, [], Dropped(reason))
    case Valid(i) =>
      if i.transactionId in s.records && s.records[i.transactionId].status != Pending then
        Delivery(s, [], Dropped(AlreadySettled))
      else HandleTransactionEvent(s, e, saveAccepted)
  }

  /** On a first delivery, or while the record is still PENDING, the guarded
      consumer does exactly what the source does. */
  lemma GuardedAgreesBeforeSettlement(s: Store, e: Event, saveAccepted: bool)
    requires ParseIntent(e).Valid?
    requires ParseIntent(e).intent.transactionId in s.records ==>
               s.records[ParseIntent(e).intent.transactionId].status == Pending
    ensures HandleTransactionEventGuarded(s, e, saveAccepted) == HandleTransactionEvent(s, e, saveAccepted)
  {
  }

  /** Redelivering a completed intent to the guarded consumer changes no
      balance, no record, and sends nothing. */
  lemma GuardedRedeliveryIdempotent(s: Store, e: Event, saveAccepted: bool, saveAccepted': bool)
    requires HandleTransactionEventGuarded(s, e, saveAccepted).outcome.Done?
    ensures
      var d := HandleTransactionEventGuarded(s, e, saveAccepted);
      HandleTransactionEventGuarded(d.store, e, saveAccepted') == Delivery(d.store, [], Dropped(AlreadySettled))
  {
  }
}

=== FILE: slices.dfy ===
/** The web client's two request slices (frontend/src/store/slices):
    `transferSlice` and `depositSlice`. Each is an idle / loading /
    succeeded / failed state machine driven by its request thunk's
    lifecycle actions and a reset action.

    Values the reducers only store and hand back — a response body, a
    rejection payload, the serialized error — are `Value`s; JavaScript's
    `null` and `undefined` are `None`. */
module Slices {
  import opened Common

  /** An opaque JavaScript value the reducers carry: a string, or an object
      with string-valued fields (a response body, a serialized error). */
  datatype Value = Text(text: string) | Object(fields: map<string, string>)

  datatype LoadStatus = Idle | Loading | Succeeded | Failed

  datatype SliceState = SliceState(status: LoadStatus, data: Option<Value>, error: Option<Value>)

  /** The thunk's `pending`, `fulfilled` and `rejected` actions and the
      slice's reset action. A rejected action always carries the serialized
      `error`; its `payload` is present only when the thunk rejected with a
      value. */
  datatype Action =
    | Pending
    | Fulfilled(payload: Option<Value>)
    | Rejected(payload: Option<Value>, error: Value)
    | Reset

  /** `{idle, data null, error null}`: the initial state, and what reset restores. */
  const Initial := SliceState(Idle, None, None)

  /** JavaScript's `payload ?? error`. */
  function PayloadOrError(payload: Option<Value>, error: Value): (r: Value)
    ensures payload.Some? ==> r == payload.value
    ensures payload.None? ==> r == error
  {
    if payload.Some? then payload.value else error
  }

  /** The status each action leads to, whatever the state before. */
  function StatusAfter(a: Action): LoadStatus {
    match a
    case Pending => Loading
    case Fulfilled(_) => Succeeded
    case Rejected(_, _) => Failed
    case Reset => Idle
  }

  /** The transfer slice's reducer. */
  function TransferReduce(s: SliceState, a: Action): (r: SliceState)
    ensures r.status == StatusAfter(a)
    ensures a.Pending? ==> r.data == s.data && r.error == None
    ensures a.Fulfilled? ==> r.data == a.payload && r.error == s.error
    ensures a.Rejected? ==> r.data == s.data && r.error == Some(PayloadOrError(a.payload, a.error))
    ensures a.Reset? ==> r == Initial
  {
    match a
    case Pending => s.(status := Loading, error := None)
    case Fulfilled(payload) => s.(status := Succeeded, data := payload)
    case Rejected(payload, error) => s.(status := Failed, error := Some(PayloadOrError(payload, error)))
    case Reset => SliceState(Idle, None, None)
  }

  /** The deposit slice's reducer. It is the transfer reducer except that
      `pending` keeps the previous error. */
  function DepositReduce(s: SliceState, a: Action): (r: SliceState)
    ensures r.status == StatusAfter(a)
    ensures a.Pending? ==> r == TransferReduce(s, a).(error := s.error)
    ensures !a.Pending? ==> r == TransferReduce(s, a)
  {
    match a
    case Pending => s.(status := Loading)
    case Fulfilled(payload) => s.(status := Succeeded, data := payload)
    case Rejected(payload, error) => s.(status := Failed, error := Some(PayloadOrError(payload, error)))
    case Reset => SliceState(Idle, None, None)
  }

  /** The state after a run of actions, oldest first. */
  function RunTransfer(s: SliceState, actions: seq<Action>): SliceState
    decreases |actions|
  {
    if actions == [] then s
    else TransferReduce(RunTransfer(s, actions[..|actions| - 1]), actions[|actions| - 1])
  }

  function RunDeposit(s: SliceState, actions: seq<Action>): SliceState
    decreases |actions|
  {
    if actions == [] then s
    else DepositReduce(RunDeposit(s, actions[..|actions| - 1]), actions[|actions| - 1])
  }

  /** A request's `fulfilled` or `rejected` action. */
  predicate Settles(a: Action) {
    a.Fulfilled? || a.Rejected?
  }

  /** Requests made one at a time: every settlement comes straight after
      its own `pending` (or after a reset that cleared the slice while the
      request was in flight), never after another settlement. */
  predicate OneAtATime(actions: seq<Action>) {
    forall i :: 0 <= i < |actions| && Settles(actions[i]) ==>
      0 < i && (actions[i - 1].Pending? || actions[i - 1].Reset?)
  }

  /** The transfer slice's shape: nothing is stored while idle, an error
      shows exactly when the last request failed. */
  predicate TransferWellFormed(s: SliceState) {
    && (s.status == Idle ==> s.data == None && s.error == None)
    && (s.status == Failed <==> s.error.Some?)
  }

  /** The deposit slice's weaker shape: nothing stored while idle, and a
      failed state carries an error. */
  predicate DepositWellFormed(s: SliceState) {
    && (s.status == Idle ==> s.data == None && s.error == None)
    && (s.status == Failed ==> s.error.Some?)
  }

  lemma InitialWellFormed()
    ensures TransferWellFormed(Initial) && DepositWellFormed(Initial)
  {
  }

  /** After any non-empty run, the status is the one the last action leads
      to, and a pending or reset leaves no error on the transfer slice. */
  lemma RunTransferLast(s: SliceState, actions: seq<Action>)
    requires actions != []
    ensures RunTransfer(s, actions).status == StatusAfter(actions[|actions| - 1])
    ensures actions[|actions| - 1].Pending? || actions[|actions| - 1].Reset? ==> RunTransfer(s, actions).error == None
  {
  }

  /** From a well-formed start, requests made one at a time keep the
      transfer slice well formed; in particular a succeeded transfer slice
      never shows an error. */
  lemma RunTransferWellFormed(s: SliceState, actions: seq<Action>)
    requires TransferWellFormed(s)
    requires OneAtATime(actions)
    ensures TransferWellFormed(RunTransfer(s, actions))
  {
  }

  /** Overlapping requests break that: a second request that succeeds after
      the first one failed leaves the transfer slice succeeded with the
      first one's error. */
  lemma OverlappingTransfersKeepError(error: Value, body: Value)
    ensures
      var actions := [Pending, Pending, Rejected(None, error), Fulfilled(Some(body))];
      && !OneAtATime(actions)
      && RunTransfer(Initial, actions) == SliceState(Succeeded, Some(body), Some(error))
  {
    var actions := [Pending, Pending, Rejected(None, error), Fulfilled(Some(body))];
    assert Settles(actions[3]) && !(actions[2].Pending? || actions[2].Reset?);
    var loading := SliceState(Loading, None, None);
    assert [Pending][..0] == [];
    assert RunTransfer(Initial, [Pending]) == loading;
    assert [Pending, Pending][..1] == [Pending];
    assert RunTransfer(Initial, [Pending, Pending]) == loading;
    assert actions[..3][..2] == [Pending, Pending];
    assert RunTransfer(Initial, actions[..3]) == SliceState(Failed, None, Some(error));
  }

  /** Every run of deposit actions, in any order, keeps the deposit shape. */
  lemma RunDepositWellFormed(s: SliceState, actions: seq<Action>)
    requires DepositWellFormed(s)
    ensures DepositWellFormed(RunDeposit(s, actions))
  {
  }

  /** The two slices, fed the same actions from the same state, agree on the
      status and the data always, and on the error whenever the slice is
      idle or failed; only a loading or succeeded deposit slice can still
      show an earlier failure. */
  lemma {:induction false} DepositTracksTransfer(s: SliceState, actions: seq<Action>)
    ensures RunDeposit(s, actions).status == RunTransfer(s, actions).status
    ensures RunDeposit(s, actions).data == RunTransfer(s, actions).data
    ensures RunTransfer(s, actions).status in {Idle, Failed} && actions != [] ==>
              RunDeposit(s, actions).error == RunTransfer(s, actions).error
    decreases |actions|
  {
    if actions != [] {
      DepositTracksTransfer(s, actions[..|actions| - 1]);
    }
  }

  /** Reset returns both slices to the initial state from any state. */
  lemma ResetFromAnyState(s: SliceState)
    ensures TransferReduce(s, Reset) == Initial && DepositReduce(s, Reset) == Initial
  {
  }

  /** Even with requests made one at a time, a failed deposit followed by a
      new request that succeeds leaves the deposit slice succeeded but still
      showing the old error, where the transfer slice shows none. */
  lemma DepositKeepsStaleError(error: Value, body: Value)
    ensures
      var actions := [Pending, Rejected(None, error), Pending, Fulfilled(Some(body))];
      && OneAtATime(actions)
      && RunDeposit(Initial, actions) == SliceState(Succeeded, Some(body), Some(error))
      && RunTransfer(Initial, actions) == SliceState(Succeeded, Some(body), None)
  {
    var actions := [Pending, Rejected(None, error), Pending, Fulfilled(Some(body))];
    var failed := SliceState(Failed, None, Some(error));
    assert [Pending][..0] == [];
    assert RunDeposit(Initial, [Pending]) == RunTransfer(Initial, [Pending]) == SliceState(Loading, None, None);
    assert [Pending, Rejected(None, error)][..1] == [Pending];
    assert RunDeposit(Initial, [Pending, Rejected(None, error)]) == failed;
    assert RunTransfer(Initial, [Pending, Rejected(None, error)]) == failed;
    assert actions[..3][..2] == [Pending, Rejected(None, error)];
    assert RunDeposit(Initial, actions[..3]) == failed.(status := Loading);
    assert RunTransfer(Initial, actions[..3]) == SliceState(Loading, None, None);
  }

  // ---------------------------------------------------------------------
  // The thunks' rejection value: the server's `message`, or a fixed text
  // when there is none. JavaScript's `||` also falls back on the empty
  // string.

  /** The two request thunks. */
  datatype Thunk = MakeTransfer | MakeDeposit

  /** `message || fallback`. */
  function MessageOr(message: Option<string>, fallback: string): (r: string)
    ensures message.Some? && message.value != "" ==> r == message.value
    ensures message.None? || message.value == "" ==> r == fallback
  {
    if message.Some? && message.value != "" then message.value else fallback
  }

  /** The rejection value as written: both thunks fall back to the deposit
      text. */
  function RejectionAsWritten(thunk: Thunk, message: Option<string>): (r: string)
    ensures r != ""
    ensures Present(message) ==> r == message.value
    ensures !Present(message) ==> r == "Deposit failed"
  {
    MessageOr(message, "Deposit failed")
  }

  /** The text naming the operation that failed. */
  function Fallback(thunk: Thunk): string {
    match thunk
    case MakeTransfer => "Transfer failed"
    case MakeDeposit => "Deposit failed"
  }

  /** The rejection value with each thunk's fallback naming its own operation. */
  function Rejection(thunk: Thunk, message: Option<string>): (r: string)
    ensures r != ""
    ensures Present(message) ==> r == message.value
    ensures !Present(message) ==> r == Fallback(thunk)
  {
    MessageOr(message, Fallback(thunk))
  }

  /** The deposit thunk is right as written; the transfer thunk differs from
      the intended value exactly when the server sent no message, and then
      tells the user a deposit failed. */
  lemma TransferFallbackNamesDeposit(message: Option<string>)
    ensures RejectionAsWritten(MakeDeposit, message) == Rejection(MakeDeposit, message)
    ensures RejectionAsWritten(MakeTransfer, message) == Rejection(MakeTransfer, message) <==> Present(message)
    ensures RejectionAsWritten(MakeTransfer, None) == "Deposit failed"
  {
    if !Present(message) {
      assert Rejection(MakeTransfer, message)[0] == 'T' != 'D' == RejectionAsWritten(MakeTransfer, message)[0];
    }
  }

  /** With the intended fallbacks, the two thunks agree exactly when the
      server sent a message. */
  lemma RejectionsDistinct(message: Option<string>)
    ensures Rejection(MakeTransfer, message) == Rejection(MakeDeposit, message) <==> Present(message)
  {
    if !Present(message) {
      assert Rejection(MakeTransfer, message)[0] == 'T' != 'D' == Rejection(MakeDeposit, message)[0];
    }
  }

  /** The action a thunk dispatches when the request fails, as written: it
      always rejects with a value, so the reducer stores that text and never
      the serialized error. */
  function ThunkRejected(thunk: Thunk, message: Option<string>, error: Value): Action {
    Rejected(Some(Text(RejectionAsWritten(thunk, message))), error)
  }

  /** As written, a failed transfer request leaves the transfer slice failed
      with the server's message, or "Deposit failed" when there is none; the
      data is kept. */
  lemma FailedTransferShowsMessage(s: SliceState, message: Option<string>, error: Value)
    ensures
      var r := TransferReduce(s, ThunkRejected(MakeTransfer, message, error));
      && r.status == Failed && r.data == s.data
      && r.error.Some? && r.error.value.Text? && r.error.value.text != ""
      && (Present(message) ==> r.error == Some(Text(message.value)))
      && (!Present(message) ==> r.error == Some(Text("Deposit failed")))
  {
  }

  /** With the intended fallback, a failed transfer request with no server
      message leaves the transfer slice showing "Transfer failed". */
  lemma FailedTransferShowsIntendedMessage(s: SliceState, message: Option<string>, error: Value)
    ensures
      var r := TransferReduce(s, Rejected(Some(Text(Rejection(MakeTransfer, message))), error));
      && r.status == Failed && r.data == s.data
      && (Present(message) ==> r.error == Some(Text(message.value)))
      && (!Present(message) ==> r.error == Some(Text("Transfer failed")))
  {
  }

  /** A failed deposit request leaves the deposit slice failed with the
      server's message, or "Deposit failed"; the data is kept. */
  lemma FailedDepositShowsMessage(s: SliceState, message: Option<string>, error: Value)
    ensures
      var r := DepositReduce(s, ThunkRejected(MakeDeposit, message, error));
      && r.status == Failed && r.data == s.data
      && r.error.Some? && r.error.value.Text? && r.error.value.text != ""
      && (Present(message) ==> r.error == Some(Text(message.value)))
      && (!Present(message) ==> r.error == Some(Text("Deposit failed")))
  {
  }
}
